=== FILE: README.md ===
# flowable-mockwebserver in Dafny

A model of the Flowable mock web server: a test double for HTTP clients that
records every request it receives and answers from a queue of canned
responses, a sticky default response, or a caller-supplied function.

The model covers four classes:

- `MockWebServer` (module `MockWebServer`) is one immutable value. It holds the
  response provider, the log of recorded requests, the all-time request
  counter and the transport binding. Each public operation is a function from
  server to server, and the request handler is one of them. `handle` returns
  a `Delivery`: either nothing, or one callback with the response after a
  sleep of a given number of milliseconds.
- `MockResponseBuilder` (module `ResponseBuilder`) is a builder value. Its
  headers live in an insertion-ordered multimap (module `HeaderMultimap`)
  that behaves like `MockResponseBuilder`'s `LinkedHashMap<String, List<String>>` header map:
  - `header` removes and re-adds, so the name moves to the end of the order;
  - `addHeader` appends a value and keeps the name where it is;
  - `build` flattens the map into one header per value.
- `RecordedRequest` (module `RecordedRequests`) wraps the transport's request.
  It provides case-insensitive header lookup, grouping of headers by exact
  name, and `RequestUrl` parsing. A query segment is kept iff `split("=")`
  yields exactly two pieces. Since `split` drops trailing empty strings,
  `a=b==` is kept as `a → b` while `a=` is dropped (see
  `JavaString.KeyValueShape`).
- `MockHttpStatusCode` (module `StatusCodes`) maps integer codes to the 30
  named statuses and gives unknown codes a class reason.

Supporting modules model the bits of the JDK the classes rely on:

- `JavaString`: `startsWith`, `indexOf`, ASCII `equalsIgnoreCase`, and
  `split` with a one-character separator and limit zero.
- `Decimal`: `String.valueOf` for integers.
- `Utf8`: `getBytes(UTF_8)`.
- `Http`: the microhttp `Header`, `Request` and `Response`, plus
  `java.time.Duration` held as nanoseconds.
- `Wrappers`: `Option` stands for a nullable reference, and `Result` for a
  call that returns or throws.

## Model

| member | source | states |
|---|---|---|
| StatusCodes.KnownOf | src/main/java/org/flowable/mockwebserver/MockHttpStatusCode.java:41-71 | a named status is found exactly for the 30 listed codes and carries the code asked for; no named status has a code that yields none |
| StatusCodes.From | src/main/java/org/flowable/mockwebserver/MockHttpStatusCode.java:40-74 | the status always reports the requested code; it is a named status iff some named status has that code, otherwise a custom status with the class reason |
| StatusCodes.FromWithReason | src/main/java/org/flowable/mockwebserver/MockHttpStatusCode.java:76-78 | a custom status reports exactly the given code and reason |
| StatusCodes.ReasonForCode | src/main/java/org/flowable/mockwebserver/MockHttpStatusCode.java:80-94 | codes 100..599 get the reason of their hundreds class; every other code gets "Mock Response" |
| StatusCodes.FromKnownCode | src/main/java/org/flowable/mockwebserver/MockHttpStatusCode.java:40-74 | round trip: looking up the code of a named status gives back that very status |
| StatusCodes.KnownCodesDistinct | src/main/java/org/flowable/mockwebserver/MockHttpStatusCode.java:41-71 | no two named statuses share a code, so the switch is unambiguous |
| StatusCodes.KnownCodesAreClassified | src/main/java/org/flowable/mockwebserver/MockHttpStatusCode.java:80-94 | every named code lies in 200..599 and so has a class reason |
| Decimal.NatToString | src/main/java/org/flowable/mockwebserver/MockResponseBuilder.java:162 | the decimal text is non-empty, all digits, and has no leading zero |
| Decimal.NatToStringRoundTrip | src/main/java/org/flowable/mockwebserver/MockResponseBuilder.java:162 | the Content-Length text reads back as the length it was made from |
| Decimal.NatToStringInjective | src/main/java/org/flowable/mockwebserver/MockResponseBuilder.java:162 | different lengths never give the same Content-Length text |
| Decimal.IntToString | src/main/java/org/flowable/mockwebserver/MockWebServer.java:129 | the text starts with '-' iff the number is negative, and its digits read back as the magnitude |
| Utf8.Encode | src/main/java/org/flowable/mockwebserver/MockResponseBuilder.java:209-213 | the encoding has between one and four bytes per character |
| Utf8.EncodeAscii | src/main/java/org/flowable/mockwebserver/MockResponseBuilder.java:209-213 | ASCII text encodes to one byte per character with the same values |
| Utf8.EncodeConcat | src/main/java/org/flowable/mockwebserver/MockResponseBuilder.java:209-213 | the encoding of a concatenation is the concatenation of the encodings |
| Http.ToMillis | src/main/java/org/flowable/mockwebserver/MockWebServer.java:276 | whole milliseconds truncated toward zero: the result times 1e6 brackets the nanoseconds from below (or from above when negative) |
| Http.OfMillis | src/main/java/org/flowable/mockwebserver/MockResponseBuilder.java:227 | a duration made of whole milliseconds converts back to the same count |
| Http.ValuesNamedConcat | src/main/java/org/flowable/mockwebserver/MockResponseBuilder.java:251-257 | selecting one name's values distributes over concatenating header lists |
| Http.ValuesNamedEmpty | src/main/java/org/flowable/mockwebserver/RecordedRequest.java:100-108 | a name has no values iff no header carries exactly that name |
| JavaString.IndexOf | src/main/java/org/flowable/mockwebserver/RecordedRequest.java:156-158 | -1 iff the character is absent; otherwise the position holds it and nothing before does |
| JavaString.IndexOfFirst | src/main/java/org/flowable/mockwebserver/RecordedRequest.java:156-158 | any position holding the character with none before it is the one reported |
| JavaString.EqualsIgnoreCaseIsLowerEquality | src/main/java/org/flowable/mockwebserver/RecordedRequest.java:87 | case-insensitive equality holds iff the lower-cased names are equal |
| JavaString.SplitAllJoin | src/main/java/org/flowable/mockwebserver/RecordedRequest.java:160 | joining the split pieces with the separator restores the input |
| JavaString.JoinSplitAll | src/main/java/org/flowable/mockwebserver/RecordedRequest.java:160 | splitting a separator-free list's join gives back the list |
| JavaString.DropTrailingEmpty | src/main/java/org/flowable/mockwebserver/RecordedRequest.java:160-162 | the result is a prefix, only empty pieces are dropped, and the last kept piece is non-empty |
| JavaString.Split | src/main/java/org/flowable/mockwebserver/RecordedRequest.java:160-162 | no piece holds the separator; without one the input comes back whole; otherwise the pieces are the leading pieces of the full split, and only empty trailing pieces are dropped |
| JavaString.SplitJoinsBack | src/main/java/org/flowable/mockwebserver/RecordedRequest.java:160-162 | the returned pieces, followed by as many empty pieces as were dropped, join back with the separator into the input |
| JavaString.KeyValueOfShape | src/main/java/org/flowable/mockwebserver/RecordedRequest.java:162-166 | `key=value` followed by any run of '=' yields that key and value |
| JavaString.KeyValueShape | src/main/java/org/flowable/mockwebserver/RecordedRequest.java:162-166 | conversely, every accepted segment has exactly that shape, with a non-empty value |
| HeaderMultimap.Remove | src/main/java/org/flowable/mockwebserver/MockResponseBuilder.java:121 | the name is gone; every other name keeps its values and its relative position in the key order; nothing changes when the name was absent |
| HeaderMultimap.Add | src/main/java/org/flowable/mockwebserver/MockResponseBuilder.java:132-136 | the value goes after the name's existing values, a new name goes last in the order, other names are untouched |
| HeaderMultimap.Put | src/main/java/org/flowable/mockwebserver/MockResponseBuilder.java:120-123 | the name holds only the new value and comes last in the order; other names are untouched |
| HeaderMultimap.Flatten | src/main/java/org/flowable/mockwebserver/MockResponseBuilder.java:251-257 | one header per stored value, each named by a key of the map |
| HeaderMultimap.FlattenValuesNamed | src/main/java/org/flowable/mockwebserver/MockResponseBuilder.java:251-257 | reading a name back from the built headers gives exactly that name's stored values, in order |
| HeaderMultimap.FlattenNameOrder | src/main/java/org/flowable/mockwebserver/MockResponseBuilder.java:252-256 | collapsing runs of equal names in the built headers gives back the map's key order |
| ResponseBuilder.SetHeader | src/main/java/org/flowable/mockwebserver/MockResponseBuilder.java:120-123 | replaces the name's values with the one value, moves it to the end of the order, leaves all else alone |
| ResponseBuilder.AddHeader | src/main/java/org/flowable/mockwebserver/MockResponseBuilder.java:132-136 | appends the value to the name's values, keeps the order unless the name is new, leaves all else alone |
| ResponseBuilder.NewBuilder | src/main/java/org/flowable/mockwebserver/MockResponseBuilder.java:45-56 | a fresh builder is 200 OK, empty body, no delay, with only Content-Length, which matches the body |
| ResponseBuilder.SetStatus | src/main/java/org/flowable/mockwebserver/MockResponseBuilder.java:104-110 | a null status fails with "status cannot be null"; otherwise only the status changes |
| ResponseBuilder.WithStatus | src/main/java/org/flowable/mockwebserver/MockResponseBuilder.java:104-110 | setting a present status always succeeds with the same builder as the checked setter |
| ResponseBuilder.StatusOk | src/main/java/org/flowable/mockwebserver/MockResponseBuilder.java:63-65 | the status becomes 200 OK and nothing else changes |
| ResponseBuilder.StatusNotFound | src/main/java/org/flowable/mockwebserver/MockResponseBuilder.java:72-74 | the status becomes 404 Not Found and nothing else changes |
| ResponseBuilder.SetStatusCode | src/main/java/org/flowable/mockwebserver/MockResponseBuilder.java:82-84 | the status reports the code; it is the named status exactly when the code is listed, and otherwise a custom status with the class reason |
| ResponseBuilder.SetStatusWithReason | src/main/java/org/flowable/mockwebserver/MockResponseBuilder.java:93-95 | the status reports exactly the code and reason given, even for a listed code |
| ResponseBuilder.SetBody | src/main/java/org/flowable/mockwebserver/MockResponseBuilder.java:160-164 | the body is the bytes, Content-Length matches it and moves last, other headers and fields are untouched |
| ResponseBuilder.SetBodyText | src/main/java/org/flowable/mockwebserver/MockResponseBuilder.java:198-213 | the body is the UTF-8 encoding, Content-Length counts its bytes, and Content-Length moves to the end of the header order with the other names in their order |
| ResponseBuilder.SetJsonBody | src/main/java/org/flowable/mockwebserver/MockResponseBuilder.java:174-189 | UTF-8 body with matching Content-Length, and Content-Type is application/json alone; the header order is the other names in their order, then Content-Length, then Content-Type |
| ResponseBuilder.SetBodyDelayDuration | src/main/java/org/flowable/mockwebserver/MockResponseBuilder.java:237-243 | accepted iff the duration is strictly positive; otherwise "delay must be positive" and no change |
| ResponseBuilder.TruncatingDiv | src/main/java/org/flowable/mockwebserver/MockResponseBuilder.java:227 | Java long division, rounding toward zero: for a non-negative dividend the quotient times the divisor lies at or below it, within one divisor; for a negative one, at or above it, within one divisor |
| ResponseBuilder.ConvertToMillis | src/main/java/org/flowable/mockwebserver/MockResponseBuilder.java:227 | the whole number of milliseconds in the amount, truncated toward zero: the result times 10^6 nanoseconds lies within one millisecond below the amount (above it for a negative amount); so zero iff a non-negative amount is under one millisecond |
| ResponseBuilder.SetBodyDelay | src/main/java/org/flowable/mockwebserver/MockResponseBuilder.java:223-228 | a non-positive amount fails with "delay must be greater than 0"; a positive one succeeds iff it reaches a whole millisecond, else "delay must be positive" |
| ResponseBuilder.Build | src/main/java/org/flowable/mockwebserver/MockResponseBuilder.java:250-261 | status, body and delay are copied; one header per stored value; each name reads back its values; names appear in map order |
| ResponseBuilder.NewBuilderBuildsDefault | src/main/java/org/flowable/mockwebserver/MockResponseBuilder.java:45-47 | an unconfigured builder builds 200 OK, empty body, no delay and the single header Content-Length: 0 |
| ResponseBuilder.BuiltContentLength | src/main/java/org/flowable/mockwebserver/MockResponseBuilder.java:160-164 | the single built Content-Length value parses back to the body length |
| ResponseBuilder.AsciiBodyLength | src/main/java/org/flowable/mockwebserver/MockResponseBuilder.java:209-213 | for ASCII text, Content-Length is the character count |
| ResponseBuilder.HeaderReplaceAndAppend | src/test/java/org/flowable/mockwebserver/MockResponseBuilderTest.java:95-111 | set, reset, set and add give Content-Length: 0, Content-Type: text/plain, then both custom values in order |
| ResponseBuilder.SubMillisecondDelayRejected | src/main/java/org/flowable/mockwebserver/MockResponseBuilder.java:223-243 | 1 to 999 microseconds passes the first check but rounds to zero ms and is rejected as not positive |
| RecordedRequests.Path | src/main/java/org/flowable/mockwebserver/RecordedRequest.java:47-49 | the raw request target, path and query, exactly as the transport parsed it |
| RecordedRequests.Method | src/main/java/org/flowable/mockwebserver/RecordedRequest.java:64-66 | the request method exactly as the transport parsed it |
| RecordedRequests.GetBody | src/main/java/org/flowable/mockwebserver/RecordedRequest.java:115-117 | a body view whose byte array is the request body |
| RecordedRequests.AsByteArray | src/main/java/org/flowable/mockwebserver/RecordedRequest.java:144-146 | the bytes the body view was made from, which rebuild the same view |
| RecordedRequests.GetRequestUrl | src/main/java/org/flowable/mockwebserver/RecordedRequest.java:57-59 | without '?' the path is the whole target and there are no parameters; with one, the target is the path, '?', and the query the parameters are parsed from |
| RecordedRequests.ValuesMatching | src/main/java/org/flowable/mockwebserver/RecordedRequest.java:84-93 | no more values than headers, and none at all iff no header name matches ignoring case |
| RecordedRequests.HeaderValues | src/main/java/org/flowable/mockwebserver/RecordedRequest.java:84-93 | the list is empty exactly when no header of the request matches the name ignoring case |
| RecordedRequests.ValuesMatchingIsLowerCaseLookup | src/main/java/org/flowable/mockwebserver/RecordedRequest.java:84-93 | case-insensitive lookup equals exact lookup after lower-casing every name and the query |
| RecordedRequests.HeaderValue | src/main/java/org/flowable/mockwebserver/RecordedRequest.java:74-76 | null iff there is no matching value, else the first of the matching values |
| RecordedRequests.Group | src/main/java/org/flowable/mockwebserver/RecordedRequest.java:100-108 | well-formed grouping that keeps every header, each exact name with its values in arrival order |
| RecordedRequests.Headers | src/main/java/org/flowable/mockwebserver/RecordedRequest.java:100-108 | the keys are exactly the names present, each mapped to its non-empty value list in arrival order |
| RecordedRequests.GroupKeepsEveryHeader | src/main/java/org/flowable/mockwebserver/RecordedRequest.java:100-108 | grouping loses nothing: flattening the grouping gives back every name's values |
| RecordedRequests.CollectOfKey | src/main/java/org/flowable/mockwebserver/RecordedRequest.java:161-168 | putting pairs in order keeps a key iff some pair has it, with the value of the last such pair |
| RecordedRequests.QueryParameterOfKey | src/main/java/org/flowable/mockwebserver/RecordedRequest.java:160-168 | a parameter is present iff some segment splits into it and a value; the last such segment wins; other segments are dropped |
| RecordedRequests.QueryParametersLastWins | src/main/java/org/flowable/mockwebserver/RecordedRequest.java:160-168 | the same for every key at once |
| RecordedRequests.UrlFrom | src/main/java/org/flowable/mockwebserver/RecordedRequest.java:155-171 | the path is everything before the first '?', and the parameters come from the rest split on '&'; no '?' means no parameters |
| RecordedRequests.UrlFromPathAndQuery | src/main/java/org/flowable/mockwebserver/RecordedRequest.java:155-171 | a '?'-free path followed by '?' and a query parses back into that path and that query's parameters |
| RecordedRequests.TwoParameterQuery | src/test/java/org/flowable/mockwebserver/RecordedRequestTest.java:53-69 | `path?k1=v1&k2=v2` parses to the path and exactly those two parameters |
| MockWebServer.NewServer | src/main/java/org/flowable/mockwebserver/MockWebServer.java:46-48 | a fresh server has an empty queue and no default, counts no request, has nothing to take, reports port -1 and has no URL yet |
| MockWebServer.NewServerWith | src/main/java/org/flowable/mockwebserver/MockWebServer.java:55-57 | a fresh server with a custom provider asks that provider for every request, counts no request, has nothing to take, reports port -1 and has no URL yet |
| MockWebServer.Start | src/main/java/org/flowable/mockwebserver/MockWebServer.java:73-84 | binds when not started; a second start changes nothing |
| MockWebServer.Shutdown | src/main/java/org/flowable/mockwebserver/MockWebServer.java:89-103 | unbinds; queue, log and counter survive |
| MockWebServer.GetPort | src/main/java/org/flowable/mockwebserver/MockWebServer.java:229-235 | -1 before start, the bound port after |
| MockWebServer.Url | src/main/java/org/flowable/mockwebserver/MockWebServer.java:123-133 | fails with "Server not started" iff unbound; otherwise the authority, then the path itself when it starts with '/', else a path that starts with '/', ends with the given path and is one character longer |
| MockWebServer.UrlRoot | src/main/java/org/flowable/mockwebserver/MockWebServer.java:111-113 | fails with "Server not started" iff unbound; otherwise the authority followed by a single '/' |
| MockWebServer.UrlSlashNormalization | src/main/java/org/flowable/mockwebserver/MockWebServer.java:111-133 | a missing leading slash makes no difference, and url() is the URL of the root path |
| MockWebServer.SetDefaultResponse | src/main/java/org/flowable/mockwebserver/MockWebServer.java:147-149 | fails with a class-cast error iff a custom provider is installed; otherwise only the default changes, and a null argument removes it |
| MockWebServer.ClearedDefaultNeverAnswers | src/main/java/org/flowable/mockwebserver/MockWebServer.java:243-248 | once the default is cleared on a server with an empty queue, no later request is answered, though each is counted and recorded |
| MockWebServer.FailFast | src/main/java/org/flowable/mockwebserver/MockWebServer.java:138-140 | fails with a class-cast error iff a custom provider is installed; otherwise the 501 response becomes the default and nothing else changes |
| MockWebServer.EnqueueBuilder | src/main/java/org/flowable/mockwebserver/MockWebServer.java:156-158 | fails with a class-cast error iff a custom provider is installed; otherwise exactly the response the builder builds joins the tail of the queue, carrying the builder's status code, body and delay; the default, log, counter and binding are kept |
| MockWebServer.Enqueue | src/main/java/org/flowable/mockwebserver/MockWebServer.java:156-167 | fails with a class-cast error iff a custom provider is installed; otherwise the response joins the tail of the queue and nothing else changes |
| MockWebServer.TakeRequest | src/main/java/org/flowable/mockwebserver/MockWebServer.java:175-177 | null at once on an empty log; otherwise the oldest request, removed from the log |
| MockWebServer.ClearRequestsAndResponses | src/main/java/org/flowable/mockwebserver/MockWebServer.java:216-222 | the log empties, and so does the queue in queue mode; the default, counter, binding and a custom provider stay |
| MockWebServer.Resolve | src/main/java/org/flowable/mockwebserver/MockWebServer.java:243-248 | the queue head is consumed while the queue lasts; then the default is returned and not consumed; with neither, null; a function provider is asked |
| MockWebServer.SleepMillis | src/main/java/org/flowable/mockwebserver/MockWebServer.java:273-289 | never negative; positive only with a delay, then its whole-millisecond part; at least one millisecond of delay always sleeps |
| MockWebServer.Dispatch | src/main/java/org/flowable/mockwebserver/MockWebServer.java:273-289 | a resolved response is always delivered, with its inner response, after exactly the sleep `SleepMillis` derives from its delay |
| MockWebServer.Handle | src/main/java/org/flowable/mockwebserver/MockWebServer.java:263-271 | counts and records the request before resolving; delivers iff the provider yields a response |
| MockWebServer.TakeRequestWithin | src/main/java/org/flowable/mockwebserver/MockWebServer.java:188-202 | with no other thread adding requests, the timed take returns null at once on an empty log, otherwise the oldest request, removed from the log |
| MockWebServer.RequestCountCountsHandles | src/main/java/org/flowable/mockwebserver/MockWebServer.java:209-211 | requestCount() rises by exactly the number of requests handled, and taking requests or clearing leaves it as it was |
| MockWebServer.HandleAllRecords | src/main/java/org/flowable/mockwebserver/MockWebServer.java:263-266 | a batch of requests adds its size to the counter and its requests to the log in arrival order |
| MockWebServer.QueueServesInOrder | src/main/java/org/flowable/mockwebserver/MockWebServer.java:243-248 | queued responses are served first in, first out, each once, and the default is left alone |
| MockWebServer.DefaultServedRepeatedly | src/main/java/org/flowable/mockwebserver/MockWebServer.java:243-245 | with an empty queue, every request gets the default and it is never consumed |
| MockWebServer.UnconfiguredNeverAnswers | src/main/java/org/flowable/mockwebserver/MockWebServer.java:243-248 | with no queue and no default, no request is ever answered, though each is recorded |
| MockWebServer.HandleAllConcat | src/main/java/org/flowable/mockwebserver/MockWebServer.java:263-271 | handling two batches in turn is handling their concatenation |
| MockWebServer.QueueThenDefault | src/test/java/org/flowable/mockwebserver/MockWebServerTest.java:36-64 | the queue is served in order first, then the default answers every later request |
| MockWebServer.TakeInArrivalOrder | src/main/java/org/flowable/mockwebserver/MockWebServer.java:175-177 | repeated takes return the recorded requests in arrival order, then null |
| MockWebServer.RecordedRequestsReadBack | src/main/java/org/flowable/mockwebserver/RecordedRequest.java:47-66 | the request taken back has the method, raw path and body bytes the transport delivered |
| MockWebServer.CountIsHandles | src/main/java/org/flowable/mockwebserver/MockWebServer.java:209-222 | over any sequence of operations the counter grows by exactly the number of requests handled; clearing never resets it; the log never outgrows it; the provider mode never changes |
| MockWebServer.StepKeepsInvariant | src/main/java/org/flowable/mockwebserver/MockWebServer.java:209-222 | the same for one operation |
| MockWebServer.ClearDropsPendingResponses | src/main/java/org/flowable/mockwebserver/MockWebServer.java:216-222 | after a clear, a queued response is no longer served, the counter keeps counting, and only the newer request remains to take |
| MockWebServer.FailFastAnswers501 | src/main/java/org/flowable/mockwebserver/MockWebServer.java:138-140 | after failFast, a request finding the queue empty gets 501 with an empty body and only Content-Length: 0, without delay |
| MockWebServer.DelayedDeliverySleeps | src/main/java/org/flowable/mockwebserver/MockWebServer.java:273-289 | a delay given in milliseconds or coarser units sleeps exactly that many milliseconds |
| MockWebServer.EchoServerScenario | src/test/java/org/flowable/mockwebserver/MockWebServerCustomRequestProviderTest.java:48-57 | an echoing provider answers 200 with the request body, and enqueueing on that server fails |

## Left out

- Transport. Sockets, the event loop and its options are not modelled. `start` takes the resulting host and port as a parameter, because the port a random bind picks belongs to the transport.
- I/O failures. The `IOException` paths of `start`, `url`, `getPort` and `body(InputStream)` are not modelled, since the model does no I/O. The same goes for `body(InputStream)` itself, since reading a stream is I/O; `body(byte[])` is modelled.
- Concurrency. Both queues are thread-safe and the counter is atomic. Here all operations run one after another, as a test sees them, so the waiting forms of `takeRequest` behave exactly like `poll()`.
- Sleeping. `Thread.sleep` and the interrupt path (which becomes a `RuntimeException`) are not modelled. The sleep is reported as `Delivery.sleepMillis`.
- Custom providers. An exception thrown by a custom provider function is not modelled.
- Named status reasons. The reason strings of the `MockHttpStatus` enum live in a file that is not part of this model, so a named status reports its reason symbolically as `Standard(status)`.
- Microhttp lookup. `RecordedRequest.header(name)` delegates to the microhttp request. It is modelled as the first value whose name matches ignoring case; microhttp is not part of this model.
- Charsets other than UTF-8. This covers `body(String, Charset)`, `jsonBody(String, Charset)` and `Body.asString`. Only UTF-8 encoding is modelled; decoding is left out.
- `URI.create`. Percent-decoding in `getPath`/`getQuery`, fragments, absolute URIs and the `IllegalArgumentException` for malformed URIs are not modelled. The path is taken as written up to the first `?`, and the query as everything after it.
- JavaString.EqualsIgnoreCase: folds ASCII letters only; Java also folds non-ASCII letters.
- ResponseBuilder.ConvertToMillis: does not model the saturation of `TimeUnit.convert` at the limits of `long`. Amounts are unbounded integers.
- MockWebServer.CountIsHandles: the counter is an unbounded natural number, so the overflow of the `long` counter is not modelled.
- Null arguments, apart from two that are modelled. A null path in `url` throws `NullPointerException`, as does a null body in `body(byte[])` or `body(String)`. `enqueue(null)` throws one too, because `LinkedBlockingQueue.add` rejects null; the model's `Enqueue` takes a response, not an optional one.
- Null header names and values. `LinkedHashMap` and `ArrayList` accept a null name and a null value, so `header` and `addHeader` store them. `headerValues(null)` returns an empty list, because `equalsIgnoreCase(null)` is false. Names and values are plain strings here, so none of these cases can be expressed.
- The two nulls that are modelled are a null status, which `status` checks, and a null default response, which `defaultResponse` stores to remove the default.
- `close()`. The tests use the server in try-with-resources, but the class defines no `close()`, so there is nothing to model.

## Where the code and its documentation or tests disagree

The model follows the code in each case.

- With neither a queued response nor a default, the provider returns null and `handle` never calls back. Several tests expect a 501 reply in that situation instead: `MockWebServerDefaultsTest.java:35-50`, and in `MockWebServerTest.java` the tests `requestCount` and `clearRequestsAndResponses`. See `MockWebServer.UnconfiguredNeverAnswers`.
- Calling `enqueue` or `defaultResponse` on a server with a custom provider fails on an unchecked cast, i.e. with a `ClassCastException`. The tests expect an `IllegalStateException` with a message. See `MockWebServer.Enqueue`.
- The comment on `takeRequest()` says it blocks until a request arrives. The code calls `poll()`, which returns null at once.

=== FILE: decimal.dfy ===
/** Decimal rendering of integers, as `String.valueOf(int)` and string
    concatenation of an `int` produce it, together with its inverse. */
module Decimal {

  predicate IsDigit(c: char) {
    '0' <= c <= '9'
  }

  predicate AllDigits(s: string) {
    forall i :: 0 <= i < |s| ==> IsDigit(s[i])
  }

  function DigitChar(d: nat): (c: char)
    requires d < 10
    ensures IsDigit(c)
  {
    (48 + d) as char
  }

  function DigitValue(c: char): (d: nat)
    requires IsDigit(c)
    ensures d < 10
  {
    (c as int) - 48
  }

  /** The shortest decimal rendering of `n`: digits only, no leading zero. */
  function NatToString(n: nat): (s: string)
    ensures |s| >= 1 && AllDigits(s)
    ensures |s| > 1 ==> s[0] != '0'
    ensures n < 10 <==> |s| == 1
  {
    if n < 10 then [DigitChar(n)] else NatToString(n / 10) + [DigitChar(n % 10)]
  }

  /** The number a string of digits denotes (most significant digit first). */
  function DigitsToNat(s: string): nat
    requires AllDigits(s)
  {
    if |s| == 0 then 0 else DigitsToNat(s[..|s| - 1]) * 10 + DigitValue(s[|s| - 1])
  }

  /** Reading a rendered number back yields the number. */
  lemma {:induction false} NatToStringRoundTrip(n: nat)
    ensures DigitsToNat(NatToString(n)) == n
  {
    var s := NatToString(n);
    if n >= 10 {
      NatToStringRoundTrip(n / 10);
      assert s[..|s| - 1] == NatToString(n / 10);
      assert s[|s| - 1] == DigitChar(n % 10);
    }
  }

  /** Distinct numbers render to distinct strings. */
  lemma NatToStringInjective(a: nat, b: nat)
    requires NatToString(a) == NatToString(b)
    ensures a == b
  {
    NatToStringRoundTrip(a);
    NatToStringRoundTrip(b);
  }

  /** Java's `Integer.toString`: a minus sign before the magnitude of a negative value. */
  function IntToString(i: int): (s: string)
    ensures |s| >= 1
    ensures i < 0 <==> s[0] == '-'
    ensures i >= 0 ==> AllDigits(s) && DigitsToNat(s) == i
    ensures i < 0 ==> AllDigits(s[1..]) && DigitsToNat(s[1..]) == -i
  {
    NatToStringRoundTrip(if i < 0 then -i else i);
    if i < 0 then "-" + NatToString(-i) else NatToString(i)
  }
}

=== FILE: header_multimap.dfy ===
/** The builder's header store, a `LinkedHashMap<String, List<String>>`:
    names in insertion order, each with its values in insertion order. A
    removed name that is added again goes to the end of the order. */
module HeaderMultimap {

  import opened Wrappers
  import opened Http
  import JavaString

  datatype Entry = Entry(name: string, values: seq<string>)

  type Multimap = seq<Entry>

  /** The keys, in iteration order. */
  function Names(m: Multimap): (ns: seq<string>)
    ensures |ns| == |m|
  {
    if |m| == 0 then [] else [m[0].name] + Names(m[1..])
  }

  /** The invariant the map keeps: no name twice, and no empty value list
      (a list is created only to receive a value). */
  predicate WellFormed(m: Multimap) {
    |m| == 0 || (m[0].name !in Names(m[1..]) && |m[0].values| > 0 && WellFormed(m[1..]))
  }

  /** `get(name)`: the value list of a name, or null. */
  function Get(m: Multimap, name: string): (r: Option<seq<string>>)
    ensures r.Some? <==> name in Names(m)
    ensures WellFormed(m) && r.Some? ==> |r.value| > 0
  {
    if |m| == 0 then None
    else if m[0].name == name then Some(m[0].values)
    else Get(m[1..], name)
  }

  /** The number of values over all names. */
  function TotalValues(m: Multimap): nat {
    if |m| == 0 then 0 else |m[0].values| + TotalValues(m[1..])
  }

  /** The names with every occurrence of `x` deleted, the others in order. */
  function Without(ns: seq<string>, x: string): (r: seq<string>)
    ensures forall n :: n in r <==> n in ns && n != x
  {
    if |ns| == 0 then []
    else if ns[0] == x then Without(ns[1..], x)
    else [ns[0]] + Without(ns[1..], x)
  }

  /** Deleting `x` from a list that ends in some other name keeps that name last. */
  lemma {:induction false} WithoutSnoc(ns: seq<string>, y: string, x: string)
    requires y != x
    ensures Without(ns + [y], x) == Without(ns, x) + [y]
  {
    if |ns| == 0 {
      assert [] + [y] == [y];
      assert Without([y][1..], x) == [];
    } else {
      assert (ns + [y])[0] == ns[0];
      assert (ns + [y])[1..] == ns[1..] + [y];
      WithoutSnoc(ns[1..], y, x);
    }
  }

  /** `remove(name)`: the other keys keep their relative order. */
  function Remove(m: Multimap, name: string): (r: Multimap)
    ensures Names(r) == Without(Names(m), name)
    ensures Get(r, name) == None
    ensures forall n :: n != name ==> Get(r, n) == Get(m, n)
    ensures forall n :: n in Names(r) <==> n in Names(m) && n != name
    ensures name !in Names(m) ==> r == m
    ensures WellFormed(m) ==> WellFormed(r)
    ensures WellFormed(m) ==> TotalValues(r) + |Get(m, name).GetOr([])| == TotalValues(m)
  {
    if |m| == 0 then []
    else if m[0].name == name then Remove(m[1..], name)
    else
      var rest := Remove(m[1..], name);
      assert ([m[0]] + rest)[1..] == rest;
      [m[0]] + rest
  }

  /** `computeIfAbsent(name, k -> new ArrayList<>()).add(value)`: appends
      the value to the name's list, creating the list at the end of the
      order when the name is new. */
  function Add(m: Multimap, name: string, value: string): (r: Multimap)
    ensures Get(r, name) == Some(Get(m, name).GetOr([]) + [value])
    ensures forall n :: n != name ==> Get(r, n) == Get(m, n)
    ensures Names(r) == if name in Names(m) then Names(m) else Names(m) + [name]
    ensures WellFormed(m) ==> WellFormed(r)
    ensures TotalValues(r) == TotalValues(m) + 1
  {
    if |m| == 0 then
      assert [] + [value] == [value];
      [Entry(name, [value])]
    else if m[0].name == name then
      assert ([Entry(name, m[0].values + [value])] + m[1..])[1..] == m[1..];
      [Entry(name, m[0].values + [value])] + m[1..]
    else
      var rest := Add(m[1..], name, value);
      assert ([m[0]] + rest)[1..] == rest;
      [m[0]] + rest
  }

  /** `header(name, value)`: remove, then add, so the name ends with the one
      value and moves to the end of the order. */
  function Put(m: Multimap, name: string, value: string): (r: Multimap)
    ensures Get(r, name) == Some([value])
    ensures forall n :: n != name ==> Get(r, n) == Get(m, n)
    ensures Names(r) == Names(Remove(m, name)) + [name]
    ensures WellFormed(m) ==> WellFormed(r)
  {
    assert [] + [value] == [value];
    Add(Remove(m, name), name, value)
  }

  /** The header list of one entry: its name paired with each of its values. */
  function EntryHeaders(e: Entry): (hs: seq<Header>)
    ensures |hs| == |e.values|
    ensures forall i :: 0 <= i < |hs| ==> hs[i] == Header(e.name, e.values[i])
  {
    seq(|e.values|, i requires 0 <= i < |e.values| => Header(e.name, e.values[i]))
  }

  lemma EntryHeadersNamed(e: Entry, name: string)
    ensures ValuesNamed(EntryHeaders(e), name) == if e.name == name then e.values else []
  {
    var hs := EntryHeaders(e);
    if e.name == name {
      ValuesNamedAll(hs, name);
      assert forall i :: 0 <= i < |hs| ==> hs[i].value == e.values[i];
    } else {
      ValuesNamedEmpty(hs, name);
    }
  }

  lemma {:induction false} ValuesNamedAll(hs: seq<Header>, name: string)
    requires forall i :: 0 <= i < |hs| ==> hs[i].name == name
    ensures |ValuesNamed(hs, name)| == |hs|
    ensures forall i :: 0 <= i < |hs| ==> ValuesNamed(hs, name)[i] == hs[i].value
  {
    if |hs| > 0 {
      ValuesNamedAll(hs[1..], name);
    }
  }

  /** The flattening `build()` performs: one header per stored value, entries
      in map order and each entry's values in list order. */
  function Flatten(m: Multimap): (hs: seq<Header>)
    ensures |hs| == TotalValues(m)
    ensures forall i :: 0 <= i < |hs| ==> hs[i].name in Names(m)
  {
    if |m| == 0 then [] else EntryHeaders(m[0]) + Flatten(m[1..])
  }

  /** Reading a name back out of the flattened list gives exactly the values
      the map holds for it, in order (none for an absent name). */
  lemma {:induction false} FlattenValuesNamed(m: Multimap, name: string)
    requires WellFormed(m)
    ensures ValuesNamed(Flatten(m), name) == Get(m, name).GetOr([])
  {
    if |m| > 0 {
      FlattenValuesNamed(m[1..], name);
      ValuesNamedConcat(EntryHeaders(m[0]), Flatten(m[1..]), name);
      EntryHeadersNamed(m[0], name);
    }
  }

  /** The names of a header list, in order. */
  function HeaderNames(hs: seq<Header>): (ns: seq<string>)
    ensures |ns| == |hs|
    ensures forall i :: 0 <= i < |hs| ==> ns[i] == hs[i].name
  {
    seq(|hs|, i requires 0 <= i < |hs| => hs[i].name)
  }

  /** A list of names with each run of adjacent repeats reduced to one. */
  function CollapseRuns(ns: seq<string>): seq<string> {
    if |ns| <= 1 then ns
    else if ns[0] == ns[1] then CollapseRuns(ns[1..])
    else [ns[0]] + CollapseRuns(ns[1..])
  }

  lemma {:induction false} CollapseRunsRepeat(x: string, k: nat, ys: seq<string>)
    requires k >= 1
    requires |ys| == 0 || ys[0] != x
    ensures CollapseRuns(JavaString.Repeat(x, k) + ys) == [x] + CollapseRuns(ys)
  {
    var ns := JavaString.Repeat(x, k) + ys;
    if k == 1 {
      assert ns == [x] + ys;
      if |ys| > 0 {
        assert ns[1..] == ys;
      }
    } else {
      assert ns[1..] == JavaString.Repeat(x, k - 1) + ys;
      CollapseRunsRepeat(x, k - 1, ys);
    }
  }

  /** The flattened list visits the names in map order: collapsing the runs
      of equal names gives back the key order. */
  lemma {:induction false} FlattenNameOrder(m: Multimap)
    requires WellFormed(m)
    ensures CollapseRuns(HeaderNames(Flatten(m))) == Names(m)
  {
    if |m| > 0 {
      var e := m[0];
      var rest := Flatten(m[1..]);
      assert HeaderNames(Flatten(m)) == JavaString.Repeat(e.name, |e.values|) + HeaderNames(rest) by {
        assert Flatten(m) == EntryHeaders(e) + rest;
      }
      assert |HeaderNames(rest)| == 0 || HeaderNames(rest)[0] != e.name by {
        if |rest| > 0 {
          FlattenHeadName(m[1..]);
          assert m[1..][0].name in Names(m[1..]);
        }
      }
      CollapseRunsRepeat(e.name, |e.values|, HeaderNames(rest));
      FlattenNameOrder(m[1..]);
    }
  }

  lemma FlattenHeadName(m: Multimap)
    requires WellFormed(m) && |Flatten(m)| > 0
    ensures |m| > 0 && Flatten(m)[0].name == m[0].name
  {
  }

  /** The map as Java's `Map` interface shows it, without the order. */
  function ToMap(m: Multimap): (r: map<string, seq<string>>)
    ensures forall n :: n in r <==> Get(m, n).Some?
    ensures forall n :: n in r ==> r[n] == Get(m, n).value
  {
    if |m| == 0 then map[]
    else ToMap(m[1..])[m[0].name := m[0].values]
  }
}

=== FILE: http.dfy ===
/** The values exchanged with the HTTP transport: header pairs, the parsed
    request the transport hands in, the response it writes back, and
    `MockResponse`, a response paired with an optional delivery delay. */
module Http {

  import opened Wrappers
  import opened Utf8
  import opened StatusCodes

  datatype Header = Header(name: string, value: string)

  /** A parsed inbound request: method, raw path with query, headers in
      arrival order, body bytes. */
  datatype Request = Request(httpMethod: string, uri: string, headers: seq<Header>, body: seq<byte>)

  /** The response the transport writes: status line, headers in order, body. */
  datatype Response = Response(code: int, reason: ReasonPhrase, headers: seq<Header>, body: seq<byte>)

  /** `java.time.Duration`, as a signed number of nanoseconds. */
  datatype Duration = Duration(nanos: int) {

    predicate IsNegative() {
      nanos < 0
    }

    predicate IsZero() {
      nanos == 0
    }

    /** `toMillis()`: whole milliseconds, truncated toward zero. */
    function ToMillis(): (ms: int)
      ensures nanos >= 0 ==> 0 <= ms * 1_000_000 <= nanos < (ms + 1) * 1_000_000
      ensures nanos < 0 ==> (ms - 1) * 1_000_000 < nanos <= ms * 1_000_000 <= 0
    {
      if nanos >= 0 then nanos / 1_000_000 else -((-nanos) / 1_000_000)
    }
  }

  /** `Duration.ofMillis`. */
  function OfMillis(ms: int): (d: Duration)
    ensures d.ToMillis() == ms
  {
    Duration(ms * 1_000_000)
  }

  /** `MockResponse`: the response and the delay before it is delivered. */
  datatype MockResponse = MockResponse(response: Response, delay: Option<Duration>)

  /** The values of the headers whose name is exactly `name`, in order. */
  function ValuesNamed(headers: seq<Header>, name: string): (vs: seq<string>)
    ensures |vs| <= |headers|
  {
    if |headers| == 0 then []
    else (if headers[0].name == name then [headers[0].value] else []) + ValuesNamed(headers[1..], name)
  }

  lemma {:induction false} ValuesNamedConcat(a: seq<Header>, b: seq<Header>, name: string)
    ensures ValuesNamed(a + b, name) == ValuesNamed(a, name) + ValuesNamed(b, name)
  {
    if |a| == 0 {
      assert a + b == b;
    } else {
      var head := if a[0].name == name then [a[0].value] else [];
      assert (a + b)[0] == a[0];
      assert (a + b)[1..] == a[1..] + b;
      calc {
        ValuesNamed(a + b, name);
        head + ValuesNamed(a[1..] + b, name);
        { ValuesNamedConcat(a[1..], b, name); }
        head + (ValuesNamed(a[1..], name) + ValuesNamed(b, name));
        (head + ValuesNamed(a[1..], name)) + ValuesNamed(b, name);
      }
    }
  }

  /** A name that no header carries has no values; one that does has some. */
  lemma {:induction false} ValuesNamedEmpty(headers: seq<Header>, name: string)
    ensures ValuesNamed(headers, name) == [] <==> forall i :: 0 <= i < |headers| ==> headers[i].name != name
  {
    if |headers| > 0 {
      ValuesNamedEmpty(headers[1..], name);
      assert forall i :: 1 <= i < |headers| ==> headers[i] == headers[1..][i - 1];
    }
  }
}

=== FILE: java_string.dfy ===
/** The few `java.lang.String` operations the mock server relies on:
    `startsWith`, `indexOf`, ASCII `equalsIgnoreCase` and `split` with a
    one-character separator and the default limit of zero. */
module JavaString {

  import opened Wrappers

  predicate StartsWith(s: string, prefix: string) {
    |prefix| <= |s| && s[..|prefix|] == prefix
  }

  /** `suffix` is the tail of `s`; used to state what `url` builds. */
  predicate EndsWith(s: string, suffix: string) {
    |suffix| <= |s| && s[|s| - |suffix|..] == suffix
  }

  /** `n` copies of `x`. */
  function Repeat<T>(x: T, n: nat): (r: seq<T>)
    ensures |r| == n
    ensures forall i :: 0 <= i < n ==> r[i] == x
  {
    if n == 0 then [] else [x] + Repeat(x, n - 1)
  }

  /** `s.indexOf(c)`: the first position of `c`, or -1 when it does not occur. */
  function IndexOf(s: string, c: char): (i: int)
    ensures -1 <= i < |s|
    ensures i == -1 <==> c !in s
    ensures 0 <= i ==> s[i] == c && c !in s[..i]
  {
    if |s| == 0 then -1
    else if s[0] == c then 0
    else
      var j := IndexOf(s[1..], c);
      if j == -1 then -1
      else
        assert s[1..][j] == s[j + 1] && s[..j + 1] == [s[0]] + s[1..][..j];
        j + 1
  }

  /** The position `IndexOf` reports is the unique one holding `c` with no
      `c` before it. */
  lemma IndexOfFirst(s: string, c: char, k: int)
    requires 0 <= k < |s| && s[k] == c && c !in s[..k]
    ensures IndexOf(s, c) == k
  {
    var i := IndexOf(s, c);
    assert s[k] in s;
    assert forall j :: 0 <= j < k ==> s[j] != c by {
      forall j | 0 <= j < k ensures s[j] != c {
        assert s[..k][j] == s[j];
      }
    }
    assert forall j :: 0 <= j < i ==> s[j] != c by {
      forall j | 0 <= j < i ensures s[j] != c {
        assert s[..i][j] == s[j];
      }
    }
  }

  /** `Character.toLowerCase` restricted to ASCII letters. */
  function ToLowerAscii(c: char): char {
    if 'A' <= c <= 'Z' then (c as int + 32) as char else c
  }

  /** `a.equalsIgnoreCase(b)` with ASCII case folding: same length and every
      pair of characters equal after folding. */
  predicate EqualsIgnoreCase(a: string, b: string) {
    |a| == |b| && forall i :: 0 <= i < |a| ==> ToLowerAscii(a[i]) == ToLowerAscii(b[i])
  }

  function LowerAscii(s: string): (r: string)
    ensures |r| == |s|
    ensures forall i :: 0 <= i < |s| ==> r[i] == ToLowerAscii(s[i])
  {
    seq(|s|, i requires 0 <= i < |s| => ToLowerAscii(s[i]))
  }

  /** Case-insensitive equality is equality of the lower-cased strings, so it
      is an equivalence relation. */
  lemma EqualsIgnoreCaseIsLowerEquality(a: string, b: string)
    ensures EqualsIgnoreCase(a, b) <==> LowerAscii(a) == LowerAscii(b)
  {
    if LowerAscii(a) == LowerAscii(b) {
      assert |a| == |b|;
      forall i | 0 <= i < |a|
        ensures ToLowerAscii(a[i]) == ToLowerAscii(b[i])
      {
        assert LowerAscii(a)[i] == LowerAscii(b)[i];
      }
    }
  }

  /** Every piece between separators, empty ones included (split with a
      negative limit). */
  function SplitAll(s: string, sep: char): (parts: seq<string>)
    ensures |parts| >= 1
    ensures forall i :: 0 <= i < |parts| ==> sep !in parts[i]
  {
    if |s| == 0 then [""]
    else
      var rest := SplitAll(s[1..], sep);
      if s[0] == sep then [""] + rest else [[s[0]] + rest[0]] + rest[1..]
  }

  /** The pieces glued back together with the separator between them. */
  function Join(parts: seq<string>, sep: char): string
    requires |parts| >= 1
  {
    if |parts| == 1 then parts[0] else parts[0] + [sep] + Join(parts[1..], sep)
  }

  /** Drops the empty strings at the end, as `split` does with limit zero. */
  function DropTrailingEmpty(parts: seq<string>): (r: seq<string>)
    ensures |r| <= |parts| && r == parts[..|r|]
    ensures forall j :: |r| <= j < |parts| ==> parts[j] == ""
    ensures |r| > 0 ==> r[|r| - 1] != ""
  {
    if |parts| > 0 && parts[|parts| - 1] == "" then DropTrailingEmpty(parts[..|parts| - 1]) else parts
  }

  /** `s.split(sep)`: when the separator does not occur the result is the
      input alone (even the empty string); otherwise all pieces, with the
      trailing empty ones removed. */
  function Split(s: string, sep: char): (r: seq<string>)
    ensures forall i :: 0 <= i < |r| ==> sep !in r[i]
    ensures sep !in s ==> r == [s]
    ensures sep in s ==> |r| == 0 || r[|r| - 1] != ""
    ensures sep in s ==> |r| <= |SplitAll(s, sep)| && r == SplitAll(s, sep)[..|r|]
    ensures sep in s ==> forall j :: |r| <= j < |SplitAll(s, sep)| ==> SplitAll(s, sep)[j] == ""
  {
    if sep !in s then [s] else DropTrailingEmpty(SplitAll(s, sep))
  }

  /** The pieces `split` returns, followed by the empty pieces it dropped,
      join back with the separator into the input. */
  lemma SplitJoinsBack(s: string, sep: char)
    ensures |Split(s, sep)| <= |SplitAll(s, sep)|
    ensures var k := |SplitAll(s, sep)| - |Split(s, sep)|;
      Join(Split(s, sep) + Repeat("", k), sep) == s
  {
    var all := SplitAll(s, sep);
    var r := Split(s, sep);
    if sep !in s {
      SplitAllNoSeparator(s, sep);
      assert r + Repeat("", 0) == [s];
    } else {
      RestoreDropped(all, |r|);
    }
    SplitAllJoin(s, sep);
  }

  /** A prefix followed by as many empty strings as the pieces it leaves out,
      when those are all empty, is the whole list. */
  lemma RestoreDropped(all: seq<string>, n: nat)
    requires n <= |all|
    requires forall j :: n <= j < |all| ==> all[j] == ""
    ensures all[..n] + Repeat("", |all| - n) == all
  {
    var tail := Repeat("", |all| - n);
    assert tail == all[n..];
    assert all[..n] + all[n..] == all;
  }

  lemma {:induction false} SplitAllNoSeparator(a: string, sep: char)
    requires sep !in a
    ensures SplitAll(a, sep) == [a]
  {
    if |a| > 0 {
      SplitAllNoSeparator(a[1..], sep);
      assert [a[0]] + a[1..] == a;
    }
  }

  lemma {:induction false} SplitAllCons(a: string, b: string, sep: char)
    requires sep !in a
    ensures SplitAll(a + [sep] + b, sep) == [a] + SplitAll(b, sep)
  {
    var s := a + [sep] + b;
    if |a| == 0 {
      assert s[1..] == b;
    } else {
      assert s[1..] == a[1..] + [sep] + b;
      SplitAllCons(a[1..], b, sep);
      assert [a[0]] + a[1..] == a;
    }
  }

  /** Splitting then joining restores the input. */
  lemma {:induction false} SplitAllJoin(s: string, sep: char)
    ensures Join(SplitAll(s, sep), sep) == s
  {
    if |s| > 0 {
      var rest := SplitAll(s[1..], sep);
      SplitAllJoin(s[1..], sep);
      if s[0] == sep {
        assert ([""] + rest)[1..] == rest;
      } else if |rest| > 1 {
        var parts := [[s[0]] + rest[0]] + rest[1..];
        assert parts[1..] == rest[1..];
        assert Join(rest, sep) == rest[0] + [sep] + Join(rest[1..], sep);
        assert [s[0]] + s[1..] == s;
      } else {
        assert [s[0]] + s[1..] == s;
      }
    }
  }

  /** Joining separator-free pieces then splitting restores the pieces. */
  lemma {:induction false} JoinSplitAll(parts: seq<string>, sep: char)
    requires |parts| >= 1
    requires forall i :: 0 <= i < |parts| ==> sep !in parts[i]
    ensures SplitAll(Join(parts, sep), sep) == parts
  {
    if |parts| == 1 {
      SplitAllNoSeparator(parts[0], sep);
    } else {
      JoinSplitAll(parts[1..], sep);
      SplitAllCons(parts[0], Join(parts[1..], sep), sep);
      assert [parts[0]] + parts[1..] == parts;
    }
  }

  lemma {:induction false} JoinTrailingEmpty(parts: seq<string>, sep: char)
    requires |parts| >= 1
    requires forall j :: 1 <= j < |parts| ==> parts[j] == ""
    ensures Join(parts, sep) == parts[0] + Repeat(sep, |parts| - 1)
  {
    if |parts| > 1 {
      JoinTrailingEmpty(parts[1..], sep);
      assert parts[1..][0] == "";
    }
  }

  /** How a query segment splits on `=`: into a key and a value exactly when
      it is the key, one `=`, a non-empty value, and any number of further
      `=` (the pieces those leave behind are empty and dropped). */
  function KeyValue(segment: string): Option<(string, string)> {
    var parts := Split(segment, '=');
    if |parts| == 2 then Some((parts[0], parts[1])) else None
  }

  lemma KeyValueOfShape(k: string, v: string, n: nat)
    requires '=' !in k && '=' !in v && v != ""
    ensures KeyValue(k + "=" + v + Repeat('=', n)) == Some((k, v))
  {
    var parts := [k, v] + Repeat("", n);
    JoinTrailingEmpty(parts[1..], '=');
    assert parts[1..] == [v] + Repeat("", n);
    assert Join(parts, '=') == k + "=" + v + Repeat('=', n);
    JoinSplitAll(parts, '=');
    var r := DropTrailingEmpty(parts);
    assert '=' in k + "=" + v + Repeat('=', n) by {
      assert (k + "=" + v + Repeat('=', n))[|k|] == '=';
    }
  }

  lemma KeyValueShape(segment: string)
    requires KeyValue(segment).Some?
    ensures '=' !in KeyValue(segment).value.0
    ensures '=' !in KeyValue(segment).value.1
    ensures KeyValue(segment).value.1 != ""
    ensures exists n: nat :: segment == KeyValue(segment).value.0 + "=" + KeyValue(segment).value.1 + Repeat('=', n)
  {
    var all := SplitAll(segment, '=');
    var r := DropTrailingEmpty(all);
    assert '=' in segment;
    assert |r| == 2;
    SplitAllJoin(segment, '=');
    JoinTrailingEmpty(all[1..], '=');
    assert segment == all[0] + "=" + all[1] + Repeat('=', |all| - 2);
  }
}

=== FILE: mock_web_server.dfy ===
/** `MockWebServer` without threads or sockets: a value holding the response
    provider, the log of recorded requests, the all-time request counter and
    the transport binding, with one function per public operation.

    Where the `MockWebServer` test classes expect more than the code does, this model
    follows the code:
    - with no queued response and no default, the code resolves to null and
      delivers nothing (a test expects a synthesized 501 reply);
    - `enqueue` and `defaultResponse` on a server built with a custom
      provider fail on an unchecked cast, i.e. with a `ClassCastException`
      (a test expects an `IllegalStateException` with a message);
    - the tests call `close()`, which the class does not define. */
module MockWebServer {

  import opened Wrappers
  import opened Decimal
  import opened JavaString
  import opened StatusCodes
  import opened Http
  import opened ResponseBuilder
  import opened RecordedRequests

  /** The response provider, fixed when the server is built: the queue with
      an optional default, or a caller's function (null results as `None`). */
  datatype Provider =
    | QueueProvider(queue: seq<MockResponse>, defaultResponse: Option<MockResponse>)
    | FunctionProvider(respond: RecordedRequest -> Option<MockResponse>)

  /** What a running event loop reports: its host and the port it bound. */
  datatype Binding = Binding(host: string, port: int)

  datatype Server = Server(provider: Provider, log: seq<RecordedRequest>, count: nat, binding: Option<Binding>)

  datatype ServerError = ClassCast | IllegalState(message: string)

  /** What `handle` does with the transport's callback: nothing, or one call
      with the response after sleeping `sleepMillis` milliseconds. */
  datatype Delivery = NoDelivery | Deliver(response: Response, sleepMillis: int)

  /** `new MockWebServer()`: a queue provider with nothing queued and no
      default, no request seen, and not started. */
  function NewServer(): (r: Server)
    ensures r.provider == QueueProvider([], None)
    ensures RequestCount(r) == 0 && TakeRequest(r).1 == None
    ensures GetPort(r) == -1 && Url(r, "/").Failure?
  {
    Server(QueueProvider([], None), [], 0, None)
  }

  /** `new MockWebServer(responseProvider)`: every request is answered by
      `respond`; no request seen, and not started. */
  function NewServerWith(respond: RecordedRequest -> Option<MockResponse>): (r: Server)
    ensures forall req :: Resolve(r.provider, req) == (r.provider, respond(req))
    ensures RequestCount(r) == 0 && TakeRequest(r).1 == None
    ensures GetPort(r) == -1 && Url(r, "/").Failure?
  {
    Server(FunctionProvider(respond), [], 0, None)
  }

  /** `start(port)`: binds when not yet started and is a no-op otherwise.
      Which port the transport binds is its own business, so the binding is
      a parameter. */
  function Start(s: Server, bound: Binding): (r: Server)
    ensures r.binding.Some?
    ensures s.binding.Some? ==> r == s
    ensures s.binding.None? ==> r == s.(binding := Some(bound))
  {
    if s.binding.None? then s.(binding := Some(bound)) else s
  }

  /** `shutdown()`. */
  function Shutdown(s: Server): (r: Server)
    ensures r.binding.None?
    ensures r.provider == s.provider && r.log == s.log && r.count == s.count
  {
    s.(binding := None)
  }

  /** `getPort()`: the bound port, or -1 before the server is started. */
  function GetPort(s: Server): (port: int)
    ensures s.binding.None? ==> port == -1
    ensures s.binding.Some? ==> port == s.binding.value.port
  {
    match s.binding
    case None => -1
    case Some(b) => b.port
  }

  /** `"http://" + host + ":" + port`. */
  function Authority(b: Binding): string {
    "http://" + b.host + ":" + IntToString(b.port)
  }

  /** `url(path)`: fails before the server is started; otherwise the
      authority followed by the path, with a `/` put in front of a path that
      lacks one. */
  function Url(s: Server, path: string): (r: Result<string, ServerError>)
    ensures r.Failure? <==> s.binding.None?
    ensures r.Failure? ==> r.error == IllegalState("Server not started")
    ensures r.Success? ==>
      var a := Authority(s.binding.value);
      && StartsWith(r.value, a)
      && var rest := r.value[|a|..];
      && |rest| > 0 && rest[0] == '/'
      && EndsWith(rest, path)
      && |rest| <= |path| + 1
      && (StartsWith(path, "/") ==> rest == path)
  {
    match s.binding
    case None => Failure(IllegalState("Server not started"))
    case Some(b) =>
      var rest := if StartsWith(path, "/") then path else "/" + path;
      assert (Authority(b) + rest)[|Authority(b)|..] == rest;
      Success(Authority(b) + rest)
  }

  /** `url()`: the authority followed by `/`. */
  function UrlRoot(s: Server): (r: Result<string, ServerError>)
    ensures r.Failure? <==> s.binding.None?
    ensures r.Failure? ==> r.error == IllegalState("Server not started")
    ensures r.Success? ==> r.value == Authority(s.binding.value) + "/"
  {
    assert StartsWith("/", "/");
    Url(s, "/")
  }

  /** A missing leading slash makes no difference, and `url()` is the URL of
      the root path. */
  lemma UrlSlashNormalization(s: Server, path: string)
    requires !StartsWith(path, "/")
    ensures Url(s, path) == Url(s, "/" + path)
    ensures UrlRoot(s) == Url(s, "")
  {
    assert StartsWith("/" + path, "/");
    assert !StartsWith("", "/");
    assert StartsWith("/", "/");
    assert "/" + "" == "/";
  }

  /** `defaultResponse(response)`: replaces the default of the queue, and
      `None` (a null argument) removes it; a server with a custom provider
      fails the cast. */
  function SetDefaultResponse(s: Server, response: Option<MockResponse>): (r: Result<Server, ServerError>)
    ensures r.Failure? <==> s.provider.FunctionProvider?
    ensures r.Failure? ==> r.error == ClassCast
    ensures r.Success? ==> r.value.provider == QueueProvider(s.provider.queue, response)
    ensures r.Success? ==> r.value.(provider := s.provider) == s
  {
    match s.provider
    case FunctionProvider(_) => Failure(ClassCast)
    case QueueProvider(queue, _) => Success(s.(provider := QueueProvider(queue, response)))
  }

  /** The response `failFast()` installs: status 501 built by a fresh builder. */
  function NotImplementedResponse(): MockResponse {
    Build(WithStatus(NewBuilder(), Known(NotImplemented)))
  }

  /** `failFast()`: the 501 response becomes the default; a server with a
      custom provider fails the cast. */
  function FailFast(s: Server): (r: Result<Server, ServerError>)
    ensures r.Failure? <==> s.provider.FunctionProvider?
    ensures r.Failure? ==> r.error == ClassCast
    ensures r.Success? ==> r.value.provider == QueueProvider(s.provider.queue, Some(NotImplementedResponse()))
    ensures r.Success? ==> r.value.(provider := s.provider) == s
  {
    SetDefaultResponse(s, Some(NotImplementedResponse()))
  }

  /** `enqueue(response)`: appends at the tail of the queue; a server with a
      custom provider fails the cast. */
  function Enqueue(s: Server, response: MockResponse): (r: Result<Server, ServerError>)
    ensures r.Failure? <==> s.provider.FunctionProvider?
    ensures r.Failure? ==> r.error == ClassCast
    ensures r.Success? ==> r.value.provider == QueueProvider(s.provider.queue + [response], s.provider.defaultResponse)
    ensures r.Success? ==> r.value.log == s.log && r.value.count == s.count && r.value.binding == s.binding
  {
    match s.provider
    case FunctionProvider(_) => Failure(ClassCast)
    case QueueProvider(queue, d) => Success(s.(provider := QueueProvider(queue + [response], d)))
  }

  /** `enqueue(responseBuilder)`: the response the builder builds now goes
      to the tail of the queue, with the builder's status, body and delay. */
  function EnqueueBuilder(s: Server, b: Builder): (r: Result<Server, ServerError>)
    ensures r.Failure? <==> s.provider.FunctionProvider?
    ensures r.Failure? ==> r.error == ClassCast
    ensures r.Success? ==> r.value.provider.QueueProvider?
    ensures r.Success? ==> |r.value.provider.queue| == |s.provider.queue| + 1
    ensures r.Success? ==> r.value.provider.queue[..|s.provider.queue|] == s.provider.queue
    ensures r.Success? ==> var last := r.value.provider.queue[|s.provider.queue|];
      && last.response.code == b.status.Code() && last.response.body == b.body && last.delay == b.delay
    ensures r.Success? ==> r.value.provider.defaultResponse == s.provider.defaultResponse
    ensures r.Success? ==> r.value.provider.queue == s.provider.queue + [Build(b)]
    ensures r.Success? ==> r.value.log == s.log && r.value.count == s.count && r.value.binding == s.binding
  {
    Enqueue(s, Build(b))
  }

  /** `takeRequest()`: removes and returns the oldest recorded request, or
      null at once when there is none. (Its comment says it blocks; the code
      polls without waiting.) */
  function TakeRequest(s: Server): (r: (Server, Option<RecordedRequest>))
    ensures |s.log| == 0 ==> r.1 == None && r.0 == s
    ensures |s.log| > 0 ==> r.1 == Some(s.log[0]) && r.0 == s.(log := s.log[1..])
  {
    if |s.log| == 0 then (s, None) else (s.(log := s.log[1..]), Some(s.log[0]))
  }

  /** `takeRequest(timeout)`: with no concurrent producer, waiting cannot
      bring a new request, so it is the same dequeue. */
  function TakeRequestWithin(s: Server, timeout: Duration): (r: (Server, Option<RecordedRequest>))
    ensures |s.log| == 0 ==> r.1 == None && r.0 == s
    ensures |s.log| > 0 ==> r.1 == Some(s.log[0]) && r.0 == s.(log := s.log[1..])
  {
    TakeRequest(s)
  }

  /** `requestCount()`. */
  function RequestCount(s: Server): nat {
    s.count
  }

  /** `clearRequestsAndResponses()`: empties the log and, in queue mode, the
      queue; keeps the default, the counter and the binding. */
  function ClearRequestsAndResponses(s: Server): (r: Server)
    ensures r.log == [] && r.count == s.count && r.binding == s.binding
    ensures s.provider.QueueProvider? ==> r.provider == QueueProvider([], s.provider.defaultResponse)
    ensures s.provider.FunctionProvider? ==> r.provider == s.provider
  {
    match s.provider
    case QueueProvider(_, d) => Server(QueueProvider([], d), [], s.count, s.binding)
    case FunctionProvider(_) => s.(log := [])
  }

  /** The provider's `apply`. The queue gives the default, without consuming
      it, while the queue is empty and a default is set; otherwise it polls
      the head, which is null on an empty queue. */
  function Resolve(p: Provider, request: RecordedRequest): (r: (Provider, Option<MockResponse>))
    ensures p.QueueProvider? && |p.queue| > 0 ==> r == (QueueProvider(p.queue[1..], p.defaultResponse), Some(p.queue[0]))
    ensures p.QueueProvider? && |p.queue| == 0 ==> r == (p, p.defaultResponse)
    ensures p.FunctionProvider? ==> r == (p, p.respond(request))
  {
    match p
    case QueueProvider(queue, d) =>
      if |queue| == 0 && d.Some? then (p, d)
      else if |queue| == 0 then (p, None)
      else (QueueProvider(queue[1..], d), Some(queue[0]))
    case FunctionProvider(respond) => (p, respond(request))
  }

  /** How long `handle` sleeps before delivering: the delay in whole
      milliseconds when there is a delay and that is positive, else zero. */
  function SleepMillis(response: MockResponse): (ms: int)
    ensures ms >= 0
    ensures ms > 0 ==> response.delay.Some? && ms * 1_000_000 <= response.delay.value.nanos < (ms + 1) * 1_000_000
    ensures response.delay.Some? && response.delay.value.nanos >= 1_000_000 ==> ms > 0
  {
    match response.delay
    case None => 0
    case Some(d) => if d.ToMillis() > 0 then d.ToMillis() else 0
  }

  /** The private `handle(MockResponse, callback)`: sleep, then call back
      once with the inner response. */
  function Dispatch(response: MockResponse): (d: Delivery)
    ensures d.Deliver? && d.response == response.response
    ensures d.sleepMillis == SleepMillis(response)
  {
    Deliver(response.response, SleepMillis(response))
  }

  /** `handle(request, callback)`: count the request, record it at the tail
      of the log, then resolve it; deliver only when a response results. */
  function Handle(s: Server, request: Request): (r: (Server, Delivery))
    ensures r.0.count == s.count + 1
    ensures r.0.log == s.log + [RecordedRequest(request)]
    ensures r.0.binding == s.binding
    ensures r.0.provider == Resolve(s.provider, RecordedRequest(request)).0
    ensures r.1.Deliver? <==> Resolve(s.provider, RecordedRequest(request)).1.Some?
    ensures r.1.Deliver? ==> r.1 == Dispatch(Resolve(s.provider, RecordedRequest(request)).1.value)
  {
    var recorded := RecordedRequest(request);
    var s1 := s.(count := s.count + 1, log := s.log + [recorded]);
    var (p, response) := Resolve(s1.provider, recorded);
    var s2 := s1.(provider := p);
    match response
    case None => (s2, NoDelivery)
    case Some(resp) => (s2, Dispatch(resp))
  }

  /** A sequence of requests handled one after the other. */
  function HandleAll(s: Server, requests: seq<Request>): (r: (Server, seq<Delivery>))
    ensures |r.1| == |requests|
    decreases |requests|
  {
    if |requests| == 0 then (s, [])
    else
      var first := Handle(s, requests[0]);
      var rest := HandleAll(first.0, requests[1..]);
      (rest.0, [first.1] + rest.1)
  }

  function Recorded(requests: seq<Request>): (rs: seq<RecordedRequest>)
    ensures |rs| == |requests|
    ensures forall i :: 0 <= i < |requests| ==> rs[i] == RecordedRequest(requests[i])
  {
    seq(|requests|, i requires 0 <= i < |requests| => RecordedRequest(requests[i]))
  }

  /** Every request is counted and recorded, in arrival order, whatever the
      provider answers. */
  lemma HandleAllRecords(s: Server, requests: seq<Request>)
    ensures HandleAll(s, requests).0.count == s.count + |requests|
    ensures HandleAll(s, requests).0.log == s.log + Recorded(requests)
    ensures HandleAll(s, requests).0.binding == s.binding
  {
    HandleAllCounts(s, requests);
    HandleAllLogs(s, requests);
  }

  /** `requestCount()` goes up by one for every request handled, and taking
      requests or clearing leaves it as it was. */
  lemma RequestCountCountsHandles(s: Server, requests: seq<Request>)
    ensures RequestCount(HandleAll(s, requests).0) == RequestCount(s) + |requests|
    ensures RequestCount(TakeRequest(s).0) == RequestCount(s)
    ensures RequestCount(ClearRequestsAndResponses(s)) == RequestCount(s)
  {
    HandleAllRecords(s, requests);
  }

  lemma {:induction false} HandleAllCounts(s: Server, requests: seq<Request>)
    decreases |requests|
    ensures HandleAll(s, requests).0.count == s.count + |requests|
    ensures HandleAll(s, requests).0.binding == s.binding
  {
    if |requests| > 0 {
      HandleAllCounts(Handle(s, requests[0]).0, requests[1..]);
    }
  }

  lemma {:induction false} HandleAllLogs(s: Server, requests: seq<Request>)
    decreases |requests|
    ensures HandleAll(s, requests).0.log == s.log + Recorded(requests)
  {
    if |requests| == 0 {
      assert s.log + Recorded(requests) == s.log;
    } else {
      var s1 := Handle(s, requests[0]).0;
      var x := RecordedRequest(requests[0]);
      var tail := Recorded(requests[1..]);
      calc {
        HandleAll(s, requests).0.log;
        HandleAll(s1, requests[1..]).0.log;
        { HandleAllLogs(s1, requests[1..]); }
        s1.log + tail;
        (s.log + [x]) + tail;
        { AppendAssoc(s.log, [x], tail); }
        s.log + ([x] + tail);
        { RecordedCons(requests); }
        s.log + Recorded(requests);
      }
    }
  }

  lemma AppendAssoc<T>(a: seq<T>, b: seq<T>, c: seq<T>)
    ensures (a + b) + c == a + (b + c)
  {
  }

  lemma RecordedCons(requests: seq<Request>)
    requires |requests| > 0
    ensures Recorded(requests) == [RecordedRequest(requests[0])] + Recorded(requests[1..])
  {
  }

  /** Queued responses are served in enqueue order, each exactly once, and
      the default is left alone while the queue lasts. */
  lemma {:induction false} QueueServesInOrder(s: Server, requests: seq<Request>)
    decreases |requests|
    requires s.provider.QueueProvider?
    requires |requests| <= |s.provider.queue|
    ensures var (s', ds) := HandleAll(s, requests);
      && s'.provider == QueueProvider(s.provider.queue[|requests|..], s.provider.defaultResponse)
      && forall i :: 0 <= i < |requests| ==> ds[i] == Dispatch(s.provider.queue[i])
  {
    if |requests| > 0 {
      var (s1, d) := Handle(s, requests[0]);
      QueueServesInOrder(s1, requests[1..]);
      assert s1.provider.queue == s.provider.queue[1..];
      assert s.provider.queue[1..][|requests| - 1..] == s.provider.queue[|requests|..];
    }
  }

  /** With the queue empty and a default set, every request gets the
      default, which is never consumed. */
  lemma {:induction false} DefaultServedRepeatedly(s: Server, requests: seq<Request>, d: MockResponse)
    decreases |requests|
    requires s.provider == QueueProvider([], Some(d))
    ensures var (s', ds) := HandleAll(s, requests);
      && s'.provider == s.provider
      && forall i :: 0 <= i < |requests| ==> ds[i] == Dispatch(d)
  {
    if |requests| > 0 {
      var (s1, _) := Handle(s, requests[0]);
      DefaultServedRepeatedly(s1, requests[1..], d);
    }
  }

  /** With the queue empty and no default, no request is ever answered, yet
      each is still counted and recorded. */
  lemma {:induction false} UnconfiguredNeverAnswers(s: Server, requests: seq<Request>)
    decreases |requests|
    requires s.provider == QueueProvider([], None)
    ensures var (s', ds) := HandleAll(s, requests);
      && s'.provider == s.provider
      && forall i :: 0 <= i < |requests| ==> ds[i] == NoDelivery
  {
    if |requests| > 0 {
      var (s1, _) := Handle(s, requests[0]);
      UnconfiguredNeverAnswers(s1, requests[1..]);
    }
  }

  /** Clearing the default of a server with an empty queue makes every later
      request go unanswered, though each is still counted and recorded. */
  lemma ClearedDefaultNeverAnswers(s: Server, requests: seq<Request>)
    requires s.provider.QueueProvider? && |s.provider.queue| == 0
    ensures SetDefaultResponse(s, None).Success?
    ensures var (s', ds) := HandleAll(SetDefaultResponse(s, None).value, requests);
      && s'.count == s.count + |requests|
      && s'.log == s.log + Recorded(requests)
      && forall i :: 0 <= i < |requests| ==> ds[i] == NoDelivery
  {
    var s0 := SetDefaultResponse(s, None).value;
    UnconfiguredNeverAnswers(s0, requests);
    HandleAllRecords(s0, requests);
  }

  /** Handling two batches is handling their concatenation. */
  lemma {:induction false} HandleAllConcat(s: Server, a: seq<Request>, b: seq<Request>)
    decreases |a|
    ensures var (s1, da) := HandleAll(s, a);
      var (s2, db) := HandleAll(s1, b);
      HandleAll(s, a + b) == (s2, da + db)
  {
    if |a| == 0 {
      assert a + b == b;
      assert HandleAll(s, a) == (s, []);
      assert [] + HandleAll(s, b).1 == HandleAll(s, b).1;
    } else {
      var (s1, d) := Handle(s, a[0]);
      HandleAllConcat(s1, a[1..], b);
      assert (a + b)[0] == a[0];
      assert (a + b)[1..] == a[1..] + b;
      var (sa, da') := HandleAll(s1, a[1..]);
      var (sb, db) := HandleAll(sa, b);
      assert HandleAll(s, a) == (sa, [d] + da');
      assert HandleAll(s, a + b) == (sb, [d] + (da' + db));
      assert [d] + (da' + db) == ([d] + da') + db;
    }
  }

  /** The queue first, in order, then the default for every later request. */
  lemma QueueThenDefault(s: Server, requests: seq<Request>, d: MockResponse)
    requires s.provider.QueueProvider? && s.provider.defaultResponse == Some(d)
    requires |requests| >= |s.provider.queue|
    ensures var ds := HandleAll(s, requests).1;
      && (forall i :: 0 <= i < |s.provider.queue| ==> ds[i] == Dispatch(s.provider.queue[i]))
      && (forall i :: |s.provider.queue| <= i < |requests| ==> ds[i] == Dispatch(d))
  {
    var n := |s.provider.queue|;
    var a := requests[..n];
    var b := requests[n..];
    assert requests == a + b;
    HandleAllConcat(s, a, b);
    QueueServesInOrder(s, a);
    var s1 := HandleAll(s, a).0;
    assert s.provider.queue[n..] == [];
    DefaultServedRepeatedly(s1, b, d);
  }

  /** `takeRequest()` called `n` times. */
  function TakeN(s: Server, n: nat): (r: (Server, seq<Option<RecordedRequest>>))
    ensures |r.1| == n
    decreases n
  {
    if n == 0 then (s, [])
    else
      var first := TakeRequest(s);
      var rest := TakeN(first.0, n - 1);
      (rest.0, [first.1] + rest.1)
  }

  /** Taking drains the log from its head, in arrival order, and returns
      null once it is empty. */
  lemma {:induction false} TakeInArrivalOrder(s: Server, n: nat)
    decreases n
    ensures var (s', xs) := TakeN(s, n);
      && (forall i :: 0 <= i < n && i < |s.log| ==> xs[i] == Some(s.log[i]))
      && (forall i :: |s.log| <= i < n ==> xs[i] == None)
      && s'.log == (if n <= |s.log| then s.log[n..] else [])
      && s'.count == s.count && s'.provider == s.provider
  {
    if n > 0 {
      var (s1, x) := TakeRequest(s);
      TakeInArrivalOrder(s1, n - 1);
      if |s.log| > 0 {
        assert s1.log == s.log[1..];
        assert forall i :: 1 <= i < |s.log| ==> s1.log[i - 1] == s.log[i];
      }
    }
  }

  /** The request a test takes back is the request the transport delivered:
      same method, same raw path, same body bytes (empty stays empty). */
  lemma RecordedRequestsReadBack(s: Server, request: Request)
    requires |s.log| == 0
    ensures var (s1, _) := Handle(s, request);
      var (_, taken) := TakeRequest(s1);
      && taken.Some?
      && Method(taken.value) == request.httpMethod
      && Path(taken.value) == request.uri
      && AsByteArray(GetBody(taken.value)) == request.body
  {
  }

  /** The operations a test can perform on a server. */
  datatype Operation =
    | DoStart(bound: Binding)
    | DoShutdown
    | DoEnqueue(response: MockResponse)
    | DoSetDefault(newDefault: Option<MockResponse>)
    | DoFailFast
    | DoHandle(request: Request)
    | DoTake
    | DoClear

  /** One operation; one that throws leaves the server as it was. */
  function Step(s: Server, op: Operation): Server {
    match op
    case DoStart(b) => Start(s, b)
    case DoShutdown => Shutdown(s)
    case DoEnqueue(r) => Enqueue(s, r).GetOr(s)
    case DoSetDefault(r) => SetDefaultResponse(s, r).GetOr(s)
    case DoFailFast => FailFast(s).GetOr(s)
    case DoHandle(req) => Handle(s, req).0
    case DoTake => TakeRequest(s).0
    case DoClear => ClearRequestsAndResponses(s)
  }

  function Run(s: Server, ops: seq<Operation>): Server
    decreases |ops|
  {
    if |ops| == 0 then s else Run(Step(s, ops[0]), ops[1..])
  }

  function HandleCount(ops: seq<Operation>): nat {
    if |ops| == 0 then 0 else (if ops[0].DoHandle? then 1 else 0) + HandleCount(ops[1..])
  }

  /** `requestCount()` counts every `handle` since the server was built:
      clearing, taking and reconfiguring never move it. The log never holds
      more requests than were counted, and the provider mode never changes. */
  lemma {:induction false} CountIsHandles(s: Server, ops: seq<Operation>)
    decreases |ops|
    requires |s.log| <= s.count
    ensures Run(s, ops).count == s.count + HandleCount(ops)
    ensures |Run(s, ops).log| <= Run(s, ops).count
    ensures Run(s, ops).provider.QueueProvider? == s.provider.QueueProvider?
  {
    if |ops| > 0 {
      StepKeepsInvariant(s, ops[0]);
      CountIsHandles(Step(s, ops[0]), ops[1..]);
    }
  }

  /** One operation moves the counter only when it handles a request, keeps
      the log within the counter, and keeps the provider mode. */
  lemma StepKeepsInvariant(s: Server, op: Operation)
    requires |s.log| <= s.count
    ensures Step(s, op).count == s.count + (if op.DoHandle? then 1 else 0)
    ensures |Step(s, op).log| <= Step(s, op).count
    ensures Step(s, op).provider.QueueProvider? == s.provider.QueueProvider?
  {
  }

  /** Clearing drops the responses still queued and the requests recorded so
      far, but not the count: the next request finds nothing to answer it,
      and it alone is left to take. */
  lemma ClearDropsPendingResponses(s: Server, a: MockResponse, b: MockResponse, r1: Request, r2: Request)
    requires s.provider == QueueProvider([a, b], None) && s.log == []
    ensures var (s1, d1) := Handle(s, r1);
      var (s2, d2) := Handle(ClearRequestsAndResponses(s1), r2);
      && d1 == Dispatch(a)
      && d2 == NoDelivery
      && s2.count == s.count + 2
      && s2.log == [RecordedRequest(r2)]
  {
    assert [a, b][1..] == [b];
  }

  /** After `failFast()`, a request that finds the queue empty gets status
      501, an empty body and the single header `Content-Length: 0`, at once. */
  lemma FailFastAnswers501(s: Server, request: Request)
    requires s.provider == QueueProvider([], None)
    ensures FailFast(s).Success?
    ensures Handle(FailFast(s).value, request).1
      == Deliver(Response(501, Standard(NotImplemented), [Header(ContentLength, "0")], []), 0)
  {
    var expected := Response(501, Standard(NotImplemented), [Header(ContentLength, "0")], []);
    NotImplementedResponseIs();
    var s1 := FailFast(s).value;
    assert s1.provider == QueueProvider([], Some(MockResponse(expected, None)));
    assert Resolve(s1.provider, RecordedRequest(request)).1 == Some(MockResponse(expected, None));
  }

  /** The 501 response `failFast()` installs, spelled out. */
  lemma NotImplementedResponseIs()
    ensures NotImplementedResponse()
      == MockResponse(Response(501, Standard(NotImplemented), [Header(ContentLength, "0")], []), None)
  {
    var b := NewBuilder();
    assert b.headers == [HeaderMultimap.Entry(ContentLength, ["0"])];
    assert HeaderMultimap.Flatten(b.headers) == HeaderMultimap.EntryHeaders(b.headers[0]) + HeaderMultimap.Flatten([]);
  }

  /** A response built with a delay of `amount` whole milliseconds or
      coarser units is delivered after sleeping exactly that many
      milliseconds. */
  lemma DelayedDeliverySleeps(b: Builder, amount: int, unit: TimeUnit)
    requires amount > 0 && unit.NanosPerUnit() >= 1_000_000
    ensures SetBodyDelay(b, amount, unit).Success?
    ensures Dispatch(Build(SetBodyDelay(b, amount, unit).value)).sleepMillis
      == amount * (unit.NanosPerUnit() / 1_000_000)
  {
  }

  /** A provider that echoes the request body with status 200. */
  function Echo(request: RecordedRequest): Option<MockResponse> {
    Some(Build(SetBody(StatusOk(NewBuilder()), AsByteArray(GetBody(request)))))
  }

  /** The custom-provider scenario: the reply carries the request's body with
      status 200, and enqueueing on that server fails. */
  lemma EchoServerScenario(request: Request, response: MockResponse)
    ensures var d := Handle(NewServerWith(Echo), request).1;
      d.Deliver? && d.response.code == 200 && d.response.body == request.body
    ensures Enqueue(NewServerWith(Echo), response) == Failure(ClassCast)
  {
  }
}

=== FILE: recorded_request.dfy ===
/** `RecordedRequest`: a read-only view of one request the server received,
    with case-insensitive header lookup, grouping of headers by name, and the
    path/query split of `RequestUrl`. */
module RecordedRequests {

  import opened Wrappers
  import opened Utf8
  import opened JavaString
  import opened Http
  import opened HeaderMultimap

  datatype RecordedRequest = RecordedRequest(request: Request)

  /** `RecordedRequest.Body`. */
  datatype Body = Body(bytes: seq<byte>)

  /** `path()`: the raw request target, path and query together, exactly as
      the transport parsed it. */
  function Path(r: RecordedRequest): (p: string)
    ensures p == r.request.uri
  {
    r.request.uri
  }

  /** `method()`: the request method as the transport parsed it. */
  function Method(r: RecordedRequest): (m: string)
    ensures m == r.request.httpMethod
  {
    r.request.httpMethod
  }

  /** `body()`: a view whose bytes are the request body. */
  function GetBody(r: RecordedRequest): (b: Body)
    ensures AsByteArray(b) == r.request.body
  {
    Body(r.request.body)
  }

  /** `Body.asByteArray()`: the bytes the view was made from. */
  function AsByteArray(b: Body): (bs: seq<byte>)
    ensures Body(bs) == b
  {
    b.bytes
  }

  /** The values of the headers whose name equals `name` ignoring case, in
      arrival order. */
  function ValuesMatching(headers: seq<Header>, name: string): (vs: seq<string>)
    ensures |vs| <= |headers|
    ensures |vs| == 0 <==> forall i :: 0 <= i < |headers| ==> !EqualsIgnoreCase(headers[i].name, name)
  {
    if |headers| == 0 then []
    else
      var rest := ValuesMatching(headers[1..], name);
      assert forall i :: 1 <= i < |headers| ==> headers[i] == headers[1..][i - 1];
      if EqualsIgnoreCase(headers[0].name, name) then [headers[0].value] + rest else rest
  }

  /** `headerValues(name)`. */
  function HeaderValues(r: RecordedRequest, name: string): (vs: seq<string>)
    ensures |vs| == 0 <==> forall i :: 0 <= i < |r.request.headers| ==> !EqualsIgnoreCase(r.request.headers[i].name, name)
  {
    ValuesMatching(r.request.headers, name)
  }

  /** The headers with every name lower-cased. */
  function LowerNames(headers: seq<Header>): (hs: seq<Header>)
    ensures |hs| == |headers|
    ensures forall i :: 0 <= i < |headers| ==> hs[i] == Header(LowerAscii(headers[i].name), headers[i].value)
  {
    seq(|headers|, i requires 0 <= i < |headers| => Header(LowerAscii(headers[i].name), headers[i].value))
  }

  /** Looking a name up ignoring case is looking its lower-cased form up
      exactly among the lower-cased headers. */
  lemma {:induction false} ValuesMatchingIsLowerCaseLookup(headers: seq<Header>, name: string)
    ensures ValuesMatching(headers, name) == ValuesNamed(LowerNames(headers), LowerAscii(name))
  {
    if |headers| > 0 {
      ValuesMatchingIsLowerCaseLookup(headers[1..], name);
      assert LowerNames(headers)[1..] == LowerNames(headers[1..]);
      EqualsIgnoreCaseIsLowerEquality(headers[0].name, name);
    }
  }

  /** The first header whose name equals `name` ignoring case, as the
      transport's `header(name)` finds it. */
  function FirstMatching(headers: seq<Header>, name: string): (v: Option<string>)
    ensures v == if |ValuesMatching(headers, name)| == 0 then None else Some(ValuesMatching(headers, name)[0])
  {
    if |headers| == 0 then None
    else if EqualsIgnoreCase(headers[0].name, name) then Some(headers[0].value)
    else FirstMatching(headers[1..], name)
  }

  /** `header(name)`: the first value of `headerValues(name)`, or null. */
  function HeaderValue(r: RecordedRequest, name: string): (v: Option<string>)
    ensures v.None? <==> |HeaderValues(r, name)| == 0
    ensures v.Some? ==> v.value == HeaderValues(r, name)[0]
  {
    FirstMatching(r.request.headers, name)
  }

  /** Headers grouped by exact name, as `computeIfAbsent(name, ...).add(value)`
      over the arrival order builds them. */
  function Group(headers: seq<Header>): (m: Multimap)
    ensures WellFormed(m)
    ensures forall n :: Get(m, n).GetOr([]) == ValuesNamed(headers, n)
    ensures TotalValues(m) == |headers|
  {
    if |headers| == 0 then []
    else
      var init := headers[..|headers| - 1];
      var last := headers[|headers| - 1];
      ValuesNamedSnoc(headers);
      Add(Group(init), last.name, last.value)
  }

  lemma ValuesNamedSnoc(headers: seq<Header>)
    requires |headers| > 0
    ensures forall n :: (ValuesNamed(headers, n)
      == ValuesNamed(headers[..|headers| - 1], n) + (if headers[|headers| - 1].name == n then [headers[|headers| - 1].value] else []))
  {
    var init := headers[..|headers| - 1];
    var last := headers[|headers| - 1];
    assert headers == init + [last];
    forall n
      ensures ValuesNamed(headers, n) == ValuesNamed(init, n) + (if last.name == n then [last.value] else [])
    {
      ValuesNamedConcat(init, [last], n);
    }
  }

  /** `headers()`: one entry per distinct exact name, holding that name's
      values in arrival order. */
  function Headers(r: RecordedRequest): (m: map<string, seq<string>>)
    ensures forall n :: n in m <==> exists i :: 0 <= i < |r.request.headers| && r.request.headers[i].name == n
    ensures forall n :: n in m ==> m[n] == ValuesNamed(r.request.headers, n) && |m[n]| > 0
  {
    var g := Group(r.request.headers);
    forall n
      ensures Get(g, n).Some? <==> exists i :: 0 <= i < |r.request.headers| && r.request.headers[i].name == n
    {
      ValuesNamedEmpty(r.request.headers, n);
    }
    ToMap(g)
  }

  /** The grouping neither loses nor duplicates a header: the lists hold as
      many values as there are headers. */
  lemma GroupKeepsEveryHeader(r: RecordedRequest)
    ensures TotalValues(Group(r.request.headers)) == |r.request.headers|
    ensures forall n :: ValuesNamed(Flatten(Group(r.request.headers)), n) == ValuesNamed(r.request.headers, n)
  {
    var g := Group(r.request.headers);
    forall n
      ensures ValuesNamed(Flatten(g), n) == ValuesNamed(r.request.headers, n)
    {
      FlattenValuesNamed(g, n);
    }
  }

  /** `RequestUrl`: the path and the query parameters. */
  datatype RequestUrl = RequestUrl(path: string, queryParameters: map<string, string>)

  /** Each query segment split on `=`: a pair when it splits in two. */
  function ParsePairs(segments: seq<string>): (ps: seq<Option<(string, string)>>)
    ensures |ps| == |segments|
    ensures forall i :: 0 <= i < |segments| ==> ps[i] == KeyValue(segments[i])
  {
    seq(|segments|, i requires 0 <= i < |segments| => KeyValue(segments[i]))
  }

  /** `queryParameters.put(key, value)` for each pair, in order. */
  function Collect(pairs: seq<Option<(string, string)>>): map<string, string> {
    if |pairs| == 0 then map[]
    else
      var m := Collect(pairs[..|pairs| - 1]);
      match pairs[|pairs| - 1]
      case Some((k, v)) => m[k := v]
      case None => m
  }

  /** The parameters of a query already split on `&`. */
  function QueryParameters(segments: seq<string>): map<string, string> {
    Collect(ParsePairs(segments))
  }

  /** Pair `p` defines `key`. */
  predicate Defines(p: Option<(string, string)>, key: string) {
    p.Some? && p.value.0 == key
  }

  /** Pair `i` is the last one that defines `key`. */
  predicate LastDefinition(pairs: seq<Option<(string, string)>>, key: string, i: int) {
    && 0 <= i < |pairs|
    && Defines(pairs[i], key)
    && forall j :: i < j < |pairs| ==> !Defines(pairs[j], key)
  }

  /** One more pair either defines the key afresh or leaves it as it was. */
  lemma CollectStep(pairs: seq<Option<(string, string)>>, key: string)
    requires |pairs| > 0
    ensures var last := pairs[|pairs| - 1];
      var m0 := Collect(pairs[..|pairs| - 1]);
      var m := Collect(pairs);
      && (Defines(last, key) ==> key in m && m[key] == last.value.1)
      && (!Defines(last, key) ==> (key in m <==> key in m0) && (key in m0 ==> m[key] == m0[key]))
  {
  }

  /** A key is collected exactly when some pair defines it, and its value is
      the one of the last such pair. */
  lemma {:induction false} CollectOfKey(pairs: seq<Option<(string, string)>>, key: string)
    ensures key in Collect(pairs) <==> exists i :: 0 <= i < |pairs| && Defines(pairs[i], key)
    ensures key in Collect(pairs) ==>
      exists i :: LastDefinition(pairs, key, i) && pairs[i].value.1 == Collect(pairs)[key]
  {
    if |pairs| > 0 {
      var n := |pairs| - 1;
      var init := pairs[..n];
      CollectOfKey(init, key);
      CollectStep(pairs, key);
      assert forall j :: 0 <= j < n ==> init[j] == pairs[j];
      if Defines(pairs[n], key) {
        assert LastDefinition(pairs, key, n);
      } else if key in Collect(init) {
        var i :| LastDefinition(init, key, i) && init[i].value.1 == Collect(init)[key];
        assert LastDefinition(pairs, key, i);
      }
    }
  }

  /** A key is present exactly when some segment splits into that key and a
      value, and its value is the one of the last such segment: later
      duplicates win, and segments that do not split in two are dropped. */
  lemma QueryParameterOfKey(segments: seq<string>, key: string)
    ensures key in QueryParameters(segments) <==> exists i :: 0 <= i < |segments| && Defines(KeyValue(segments[i]), key)
    ensures key in QueryParameters(segments) ==>
      exists i :: LastDefinition(ParsePairs(segments), key, i) && KeyValue(segments[i]).value.1 == QueryParameters(segments)[key]
  {
    var ps := ParsePairs(segments);
    CollectOfKey(ps, key);
    assert (exists i :: 0 <= i < |segments| && Defines(KeyValue(segments[i]), key))
      <==> (exists i :: 0 <= i < |ps| && Defines(ps[i], key));
  }

  lemma QueryParametersLastWins(segments: seq<string>)
    ensures forall k :: k in QueryParameters(segments) <==> exists i :: 0 <= i < |segments| && Defines(KeyValue(segments[i]), k)
    ensures forall k :: k in QueryParameters(segments) ==>
      exists i :: LastDefinition(ParsePairs(segments), k, i) && KeyValue(segments[i]).value.1 == QueryParameters(segments)[k]
  {
    forall k {
      QueryParameterOfKey(segments, k);
    }
  }

  /** `RequestUrl.from`: the path is what precedes the first `?`; without a
      `?` there is no query and no parameter. */
  function UrlFrom(uri: string): (u: RequestUrl)
    ensures '?' !in uri ==> u == RequestUrl(uri, map[])
    ensures '?' in uri ==> '?' !in u.path && |u.path| < |uri| && uri[..|u.path| + 1] == u.path + "?"
    ensures '?' in uri ==> u.queryParameters == QueryParameters(Split(uri[|u.path| + 1..], '&'))
  {
    var q := IndexOf(uri, '?');
    if q == -1 then RequestUrl(uri, map[])
    else
      assert uri[..q + 1] == uri[..q] + "?";
      RequestUrl(uri[..q], QueryParameters(Split(uri[q + 1..], '&')))
  }

  /** A URI whose path holds no `?` splits at the `?` that follows it. */
  lemma UrlFromPathAndQuery(path: string, query: string)
    requires '?' !in path
    ensures UrlFrom(path + "?" + query) == RequestUrl(path, QueryParameters(Split(query, '&')))
  {
    var uri := path + "?" + query;
    assert uri[..|path|] == path;
    IndexOfFirst(uri, '?', |path|);
    assert uri[|path| + 1..] == query;
  }

  /** The two segments of `s1&s2` when neither holds `&` and the last is
      not empty. */
  lemma SplitTwo(s1: string, s2: string)
    requires '&' !in s1 && '&' !in s2 && s2 != ""
    ensures Split(s1 + "&" + s2, '&') == [s1, s2]
  {
    var query := s1 + "&" + s2;
    assert query[|s1|] == '&';
    assert Join([s1, s2], '&') == query by {
      assert Join([s1, s2], '&') == s1 + ['&'] + Join([s2], '&');
    }
    JoinSplitAll([s1, s2], '&');
  }

  /** `key=value` yields exactly that parameter. */
  lemma PairKeyValue(k: string, v: string)
    requires '=' !in k && '=' !in v && v != ""
    ensures KeyValue(k + "=" + v) == Some((k, v))
  {
    KeyValueOfShape(k, v, 0);
    assert k + "=" + v + Repeat('=', 0) == k + "=" + v;
  }

  /** A path followed by a query of two `key=value` pairs reads back as that
      path and those two parameters; with equal keys the second value wins. */
  lemma TwoParameterQuery(path: string, k1: string, v1: string, k2: string, v2: string)
    requires '?' !in path
    requires '=' !in k1 && '=' !in v1 && '=' !in k2 && '=' !in v2
    requires '&' !in k1 && '&' !in v1 && '&' !in k2 && '&' !in v2
    requires v1 != "" && v2 != ""
    ensures UrlFrom(path + "?" + k1 + "=" + v1 + "&" + k2 + "=" + v2) == RequestUrl(path, map[k1 := v1, k2 := v2])
  {
    var s1 := k1 + "=" + v1;
    var s2 := k2 + "=" + v2;
    assert path + "?" + k1 + "=" + v1 + "&" + k2 + "=" + v2 == path + "?" + (s1 + "&" + s2);
    assert QueryParameters(Split(s1 + "&" + s2, '&')) == map[k1 := v1, k2 := v2] by {
      SplitTwo(s1, s2);
      PairKeyValue(k1, v1);
      PairKeyValue(k2, v2);
      TwoSegments(s1, s2);
    }
    UrlFromPathAndQuery(path, s1 + "&" + s2);
  }

  lemma TwoSegments(s1: string, s2: string)
    requires KeyValue(s1).Some? && KeyValue(s2).Some?
    ensures QueryParameters([s1, s2]) == map[KeyValue(s1).value.0 := KeyValue(s1).value.1, KeyValue(s2).value.0 := KeyValue(s2).value.1]
  {
    var ps := ParsePairs([s1, s2]);
    assert ps == [KeyValue(s1), KeyValue(s2)];
    assert ps[..1] == [KeyValue(s1)];
    assert [KeyValue(s1)][..0] == [];
    assert Collect([KeyValue(s1)]) == map[KeyValue(s1).value.0 := KeyValue(s1).value.1];
  }

  /** `requestUrl()`: the raw target parsed by `RequestUrl.from`. Without a
      `?` the path is the whole target and there are no parameters; with one,
      the target is the path, `?`, and the query the parameters come from. */
  function GetRequestUrl(r: RecordedRequest): (u: RequestUrl)
    ensures '?' !in r.request.uri ==> u.path == r.request.uri && u.queryParameters == map[]
    ensures '?' in r.request.uri ==> '?' !in u.path && |u.path| < |r.request.uri| && r.request.uri[..|u.path| + 1] == u.path + "?"
    ensures '?' in r.request.uri ==> u.queryParameters == QueryParameters(Split(r.request.uri[|u.path| + 1..], '&'))
  {
    UrlFrom(Path(r))
  }
}

=== FILE: response_builder.dfy ===
/** `MockResponseBuilder`: a fluent builder of `MockResponse` values. Every
    setter returns the updated builder; a setter for which `MockResponseBuilder`
    throws `IllegalArgumentException` returns a `Result` instead and leaves the
    builder it was given untouched. */
module ResponseBuilder {

  import opened Wrappers
  import opened Utf8
  import opened Decimal
  import opened StatusCodes
  import opened Http
  import opened HeaderMultimap

  datatype BuilderError = IllegalArgument(message: string)

  datatype Builder = Builder(status: StatusCode, headers: Multimap, body: seq<byte>, delay: Option<Duration>)

  /** `java.util.concurrent.TimeUnit`. */
  datatype TimeUnit = Nanoseconds | Microseconds | Milliseconds | Seconds | Minutes | Hours | Days {

    function NanosPerUnit(): nat {
      match this
      case Nanoseconds => 1
      case Microseconds => 1_000
      case Milliseconds => 1_000_000
      case Seconds => 1_000_000_000
      case Minutes => 60_000_000_000
      case Hours => 3_600_000_000_000
      case Days => 86_400_000_000_000
    }
  }

  const ContentLength: string := "Content-Length"
  const ContentType: string := "Content-Type"

  /** Builders reachable through the API keep a well-formed header map. */
  predicate Valid(b: Builder) {
    WellFormed(b.headers)
  }

  /** `Content-Length` holds exactly one value: the decimal length of the body. */
  predicate ContentLengthMatches(b: Builder) {
    Get(b.headers, ContentLength) == Some([NatToString(|b.body|)])
  }

  /** `header(name, value)`: `name` ends with the single value `value` and
      moves to the end of the header order; every other name keeps its values. */
  function SetHeader(b: Builder, name: string, value: string): (r: Builder)
    ensures Get(r.headers, name) == Some([value])
    ensures forall n :: n != name ==> Get(r.headers, n) == Get(b.headers, n)
    ensures Names(r.headers) == Names(Remove(b.headers, name)) + [name]
    ensures r.status == b.status && r.body == b.body && r.delay == b.delay
    ensures Valid(b) ==> Valid(r)
  {
    b.(headers := Put(b.headers, name, value))
  }

  /** `addHeader(name, value)`: `value` goes after the values `name` already
      has, and a new name goes to the end of the header order. */
  function AddHeader(b: Builder, name: string, value: string): (r: Builder)
    ensures Get(r.headers, name) == Some(Get(b.headers, name).GetOr([]) + [value])
    ensures forall n :: n != name ==> Get(r.headers, n) == Get(b.headers, n)
    ensures Names(r.headers) == if name in Names(b.headers) then Names(b.headers) else Names(b.headers) + [name]
    ensures r.status == b.status && r.body == b.body && r.delay == b.delay
    ensures Valid(b) ==> Valid(r)
  {
    b.(headers := Add(b.headers, name, value))
  }

  /** The private constructor: status 200, empty body, no delay, and
      `header("Content-Length", "0")`. */
  function NewBuilder(): (b: Builder)
    ensures b.status.Code() == 200 && b.status.Reason() == Standard(Ok)
    ensures b.body == [] && b.delay == None
    ensures Names(b.headers) == [ContentLength]
    ensures ContentLengthMatches(b)
    ensures Valid(b)
  {
    SetHeader(Builder(Known(Ok), [], [], None), ContentLength, "0")
  }

  /** `status(MockHttpStatusCode)`: null is rejected and changes nothing;
      otherwise only the status changes. */
  function SetStatus(b: Builder, status: Option<StatusCode>): (r: Result<Builder, BuilderError>)
    ensures status.None? <==> r.Failure?
    ensures r.Failure? ==> r.error == IllegalArgument("status cannot be null")
    ensures r.Success? ==> r.value.status == status.value
    ensures r.Success? ==> r.value.headers == b.headers && r.value.body == b.body && r.value.delay == b.delay
  {
    if status.None? then Failure(IllegalArgument("status cannot be null"))
    else Success(b.(status := status.value))
  }

  /** `status(MockHttpStatusCode)` with a status that is not null. */
  function WithStatus(b: Builder, status: StatusCode): (r: Builder)
    ensures SetStatus(b, Some(status)) == Success(r)
  {
    b.(status := status)
  }

  /** `ok()`. */
  function StatusOk(b: Builder): (r: Builder)
    ensures r.status.Code() == 200 && r.status.Reason() == Standard(Ok)
    ensures r.headers == b.headers && r.body == b.body && r.delay == b.delay
  {
    WithStatus(b, Known(Ok))
  }

  /** `notFound()`. */
  function StatusNotFound(b: Builder): (r: Builder)
    ensures r.status.Code() == 404 && r.status.Reason() == Standard(NotFound)
    ensures r.headers == b.headers && r.body == b.body && r.delay == b.delay
  {
    WithStatus(b, Known(NotFound))
  }

  /** `statusCode(code)`: the status `from(code)` selects. */
  function SetStatusCode(b: Builder, code: int): (r: Builder)
    ensures r.status.Code() == code
    ensures r.status.Known? <==> KnownOf(code).Some?
    ensures r.status.Known? ==> KnownOf(code) == Some(r.status.status)
    ensures r.status.Custom? ==> r.status.Reason() == Text(ReasonForCode(code))
    ensures r.headers == b.headers && r.body == b.body && r.delay == b.delay
  {
    WithStatus(b, From(code))
  }

  /** `status(code, reason)`: exactly this code and reason. */
  function SetStatusWithReason(b: Builder, code: int, reason: string): (r: Builder)
    ensures r.status.Code() == code && r.status.Reason() == Text(reason)
    ensures r.headers == b.headers && r.body == b.body && r.delay == b.delay
  {
    WithStatus(b, FromWithReason(code, reason))
  }

  /** `body(byte[])`: replaces the body and recomputes `Content-Length`,
      which moves to the end of the header order. */
  function SetBody(b: Builder, bytes: seq<byte>): (r: Builder)
    ensures r.body == bytes
    ensures ContentLengthMatches(r)
    ensures forall n :: n != ContentLength ==> Get(r.headers, n) == Get(b.headers, n)
    ensures Names(r.headers) == Names(Remove(b.headers, ContentLength)) + [ContentLength]
    ensures r.status == b.status && r.delay == b.delay
    ensures Valid(b) ==> Valid(r)
  {
    SetHeader(b.(body := bytes), ContentLength, NatToString(|bytes|))
  }

  /** `body(String)`: the UTF-8 bytes of the text, as `body(byte[])` sets them. */
  function SetBodyText(b: Builder, text: string): (r: Builder)
    ensures r.body == Encode(text)
    ensures ContentLengthMatches(r)
    ensures forall n :: n != ContentLength ==> Get(r.headers, n) == Get(b.headers, n)
    ensures Names(r.headers) == Without(Names(b.headers), ContentLength) + [ContentLength]
    ensures r.status == b.status && r.delay == b.delay
    ensures Valid(b) ==> Valid(r)
  {
    SetBody(b, Encode(text))
  }

  /** `jsonBody(String)`: the text body, then `Content-Type` set to
      `application/json` alone; the two names end the header order, in that
      order, after the other names in theirs. */
  function SetJsonBody(b: Builder, text: string): (r: Builder)
    ensures r.body == Encode(text)
    ensures ContentLengthMatches(r)
    ensures Get(r.headers, ContentType) == Some(["application/json"])
    ensures forall n :: n != ContentLength && n != ContentType ==> Get(r.headers, n) == Get(b.headers, n)
    ensures |Names(r.headers)| >= 2 && Names(r.headers)[|Names(r.headers)| - 1] == ContentType
    ensures Names(r.headers) == Without(Without(Names(b.headers), ContentLength), ContentType) + [ContentLength, ContentType]
    ensures r.status == b.status && r.delay == b.delay
    ensures Valid(b) ==> Valid(r)
  {
    var t := SetBodyText(b, text);
    var r := SetHeader(t, ContentType, "application/json");
    LastTwoNames(Names(b.headers), Names(t.headers), Names(r.headers));
    r
  }

  /** Moving `Content-Length`, then `Content-Type`, to the end of the order. */
  lemma LastTwoNames(ns: seq<string>, afterLength: seq<string>, afterType: seq<string>)
    requires afterLength == Without(ns, ContentLength) + [ContentLength]
    requires afterType == Without(afterLength, ContentType) + [ContentType]
    ensures afterType == Without(Without(ns, ContentLength), ContentType) + [ContentLength, ContentType]
  {
    WithoutSnoc(Without(ns, ContentLength), ContentLength, ContentType);
  }

  /** `bodyDelay(Duration)`: a zero or negative delay is rejected; a positive
      one replaces the delay and nothing else. */
  function SetBodyDelayDuration(b: Builder, d: Duration): (r: Result<Builder, BuilderError>)
    ensures r.Success? <==> d.nanos > 0
    ensures r.Failure? ==> r.error == IllegalArgument("delay must be positive")
    ensures r.Success? ==> r.value == b.(delay := Some(d))
  {
    if d.IsNegative() || d.IsZero() then Failure(IllegalArgument("delay must be positive"))
    else Success(b.(delay := Some(d)))
  }

  /** Division truncating toward zero, as Java's `/` on `long`. */
  function TruncatingDiv(a: int, d: nat): (q: int)
    requires d > 0
    ensures a >= 0 ==> 0 <= q * d <= a < (q + 1) * d
    ensures a < 0 ==> (q - 1) * d < a <= q * d <= 0
  {
    if a >= 0 then DivBracket(a, d); a / d
    else NegatedDivBracket(-a, d); -((-a) / d)
  }

  lemma DivBracket(n: nat, d: nat)
    requires d > 0
    ensures 0 <= (n / d) * d <= n < (n / d + 1) * d
  {
    var q, m := n / d, n % d;
    assert n == q * d + m && 0 <= m < d;
    assert (q + 1) * d == q * d + d;
  }

  lemma NegatedDivBracket(n: int, d: nat)
    requires n >= 0 && d > 0
    ensures (-(n / d) - 1) * d < -n <= -(n / d) * d <= 0
  {
    var q := n / d;
    DivBracket(n, d);
    assert (-q - 1) * d == -((q + 1) * d);
    assert -q * d == -(q * d);
  }

  /** `TimeUnit.MILLISECONDS.convert(amount, unit)`: finer units are divided
      down, truncating toward zero; coarser ones are multiplied up. A
      positive amount becomes zero milliseconds exactly when it is less than
      one millisecond. */
  function ConvertToMillis(amount: int, unit: TimeUnit): (ms: int)
    ensures amount >= 0 ==> ms >= 0
    ensures amount >= 0 ==> (ms == 0 <==> amount * unit.NanosPerUnit() < 1_000_000)
    ensures amount >= 0 ==> ms * 1_000_000 <= amount * unit.NanosPerUnit() < (ms + 1) * 1_000_000
    ensures amount < 0 ==> (ms - 1) * 1_000_000 < amount * unit.NanosPerUnit() <= ms * 1_000_000
  {
    match unit
    case Nanoseconds => TruncatingDiv(amount, 1_000_000)
    case Microseconds => TruncatingDiv(amount, 1_000)
    case Milliseconds => amount
    case Seconds => amount * 1_000
    case Minutes => amount * 60_000
    case Hours => amount * 3_600_000
    case Days => amount * 86_400_000
  }

  /** `bodyDelay(amount, unit)`: a non-positive amount is rejected; otherwise
      the amount in whole milliseconds becomes the delay, which the duration
      setter in turn rejects when it rounds down to zero. */
  function SetBodyDelay(b: Builder, amount: int, unit: TimeUnit): (r: Result<Builder, BuilderError>)
    ensures amount <= 0 ==> r == Failure(IllegalArgument("delay must be greater than 0"))
    ensures amount > 0 ==> (r.Success? <==> amount * unit.NanosPerUnit() >= 1_000_000)
    ensures amount > 0 && r.Failure? ==> r.error == IllegalArgument("delay must be positive")
    ensures r.Success? ==> r.value == b.(delay := Some(Duration(ConvertToMillis(amount, unit) * 1_000_000)))
  {
    if amount <= 0 then Failure(IllegalArgument("delay must be greater than 0"))
    else SetBodyDelayDuration(b, OfMillis(ConvertToMillis(amount, unit)))
  }

  /** `build()`: the status, body and delay copied, and the header map
      flattened into one header per stored value. */
  function Build(b: Builder): (r: MockResponse)
    ensures r.response.code == b.status.Code() && r.response.reason == b.status.Reason()
    ensures r.response.body == b.body && r.delay == b.delay
    ensures |r.response.headers| == TotalValues(b.headers)
    ensures Valid(b) ==> forall n :: ValuesNamed(r.response.headers, n) == Get(b.headers, n).GetOr([])
    ensures Valid(b) ==> CollapseRuns(HeaderNames(r.response.headers)) == Names(b.headers)
  {
    FlattenNameOrderAll(b.headers);
    MockResponse(Response(b.status.Code(), b.status.Reason(), Flatten(b.headers), b.body), b.delay)
  }

  /** The two partner lemmas of `Flatten`, for every well-formed map. */
  lemma FlattenNameOrderAll(m: Multimap)
    ensures WellFormed(m) ==> forall n :: ValuesNamed(Flatten(m), n) == Get(m, n).GetOr([])
    ensures WellFormed(m) ==> CollapseRuns(HeaderNames(Flatten(m))) == Names(m)
  {
    if !WellFormed(m) {
      return;
    }
    forall n
      ensures ValuesNamed(Flatten(m), n) == Get(m, n).GetOr([])
    {
      FlattenValuesNamed(m, n);
    }
    FlattenNameOrder(m);
  }

  /** A fresh builder builds status 200 with an empty body, no delay and the
      single header `Content-Length: 0`. */
  lemma NewBuilderBuildsDefault()
    ensures Build(NewBuilder()) == MockResponse(Response(200, Standard(Ok), [Header(ContentLength, "0")], []), None)
  {
    var b := NewBuilder();
    assert b.headers == [Entry(ContentLength, ["0"])];
    assert Flatten(b.headers) == EntryHeaders(Entry(ContentLength, ["0"])) + Flatten([]);
  }

  /** After a body is set, the built response carries exactly one
      `Content-Length` header, and reading its digits gives the body length. */
  lemma BuiltContentLength(b: Builder, bytes: seq<byte>)
    requires Valid(b)
    ensures var r := Build(SetBody(b, bytes)).response;
      && r.body == bytes
      && ValuesNamed(r.headers, ContentLength) == [NatToString(|bytes|)]
      && DigitsToNat(ValuesNamed(r.headers, ContentLength)[0]) == |bytes|
  {
    NatToStringRoundTrip(|bytes|);
  }

  /** A text body of ASCII characters has a `Content-Length` equal to its
      number of characters. */
  lemma AsciiBodyLength(b: Builder, text: string)
    requires Utf8.IsAscii(text)
    ensures ContentLengthMatches(SetBodyText(b, text))
    ensures Get(SetBodyText(b, text).headers, ContentLength) == Some([NatToString(|text|)])
  {
    Utf8.EncodeAscii(text);
  }

  /** The header sequence of `MockResponseBuilderTest`'s header test: replacing a header
      keeps only the last value, adding keeps both, and the names come out
      in the order they were last (re)inserted. */
  lemma HeaderReplaceAndAppend(x: string, v1: string, v2: string)
    requires x != ContentLength && x != ContentType
    ensures
      var b0 := SetHeader(SetHeader(NewBuilder(), ContentType, "application/json"), ContentType, "text/plain");
      var b := AddHeader(SetHeader(b0, x, v1), x, v2);
      Build(b).response.headers
        == [Header(ContentLength, "0"), Header(ContentType, "text/plain"), Header(x, v1), Header(x, v2)]
  {
    var b0 := SetHeader(SetHeader(NewBuilder(), ContentType, "application/json"), ContentType, "text/plain");
    ContentTypeReplaced();
    var b := AddHeader(SetHeader(b0, x, v1), x, v2);
    CustomHeaderAppended(b0, x, v1, v2);
    FlattenExample(x, v1, v2);
  }

  lemma ContentTypeReplaced()
    ensures SetHeader(SetHeader(NewBuilder(), ContentType, "application/json"), ContentType, "text/plain").headers
      == [Entry(ContentLength, ["0"]), Entry(ContentType, ["text/plain"])]
  {
    var cl := Entry(ContentLength, ["0"]);
    var b := NewBuilder();
    assert b.headers == [cl];
    assert Remove([cl], ContentType) == [cl];
    assert Add([cl], ContentType, "application/json") == [cl] + Add([], ContentType, "application/json");
    var b1 := SetHeader(b, ContentType, "application/json");
    assert b1.headers == [cl, Entry(ContentType, ["application/json"])];
    assert Remove(b1.headers, ContentType) == [cl] + Remove([Entry(ContentType, ["application/json"])], ContentType);
    assert Add([cl], ContentType, "text/plain") == [cl] + Add([], ContentType, "text/plain");
  }

  lemma CustomHeaderAppended(b: Builder, x: string, v1: string, v2: string)
    requires b.headers == [Entry(ContentLength, ["0"]), Entry(ContentType, ["text/plain"])]
    requires x != ContentLength && x != ContentType
    ensures AddHeader(SetHeader(b, x, v1), x, v2).headers
      == [Entry(ContentLength, ["0"]), Entry(ContentType, ["text/plain"]), Entry(x, [v1, v2])]
  {
    var cl := Entry(ContentLength, ["0"]);
    var ct := Entry(ContentType, ["text/plain"]);
    CustomHeaderSet(cl, ct, x, v1);
    CustomValueAdded(cl, ct, x, v1, v2);
  }

  lemma CustomHeaderSet(cl: Entry, ct: Entry, x: string, v1: string)
    requires x != cl.name && x != ct.name
    ensures Put([cl, ct], x, v1) == [cl, ct, Entry(x, [v1])]
  {
    assert Remove([cl, ct], x) == [cl, ct] by {
      assert [cl, ct][1..] == [ct];
      assert Names([cl, ct]) == [cl.name, ct.name];
    }
    assert Add([cl, ct], x, v1) == [cl, ct, Entry(x, [v1])] by {
      assert [cl, ct][1..] == [ct];
      assert Add([ct], x, v1) == [ct] + Add([], x, v1);
    }
  }

  lemma CustomValueAdded(cl: Entry, ct: Entry, x: string, v1: string, v2: string)
    requires x != cl.name && x != ct.name
    ensures Add([cl, ct, Entry(x, [v1])], x, v2) == [cl, ct, Entry(x, [v1, v2])]
  {
    assert Add([cl, ct, Entry(x, [v1])], x, v2) == [cl] + ([ct] + Add([Entry(x, [v1])], x, v2));
    assert [v1] + [v2] == [v1, v2];
  }

  lemma FlattenExample(x: string, v1: string, v2: string)
    ensures Flatten([Entry(ContentLength, ["0"]), Entry(ContentType, ["text/plain"]), Entry(x, [v1, v2])])
      == [Header(ContentLength, "0"), Header(ContentType, "text/plain"), Header(x, v1), Header(x, v2)]
  {
    var cl := Entry(ContentLength, ["0"]);
    var ct := Entry(ContentType, ["text/plain"]);
    var xe := Entry(x, [v1, v2]);
    assert EntryHeaders(cl) == [Header(ContentLength, "0")];
    assert EntryHeaders(ct) == [Header(ContentType, "text/plain")];
    assert EntryHeaders(xe) == [Header(x, v1), Header(x, v2)];
    assert Flatten([xe]) == EntryHeaders(xe);
    assert [ct, xe][1..] == [xe];
    assert Flatten([ct, xe]) == EntryHeaders(ct) + Flatten([xe]);
    assert [cl, ct, xe][1..] == [ct, xe];
  }

  /** A positive delay shorter than a millisecond passes the first check,
      rounds down to zero milliseconds, and is then rejected as not positive. */
  lemma SubMillisecondDelayRejected(b: Builder, micros: int)
    requires 0 < micros < 1_000
    ensures SetBodyDelay(b, micros, Microseconds) == Failure(IllegalArgument("delay must be positive"))
  {
  }
}

=== FILE: status_codes.dfy ===
/** `MockHttpStatusCode`: a status code with its reason phrase, either one of
    the named `MockHttpStatus` constants or a custom pair. */
module StatusCodes {

  import opened Wrappers

  /** The named statuses `from(int)` knows about. */
  datatype KnownStatus =
    | Ok | Created | Accepted | NoContent
    | MultipleChoices | MovedPermanently | Found | SeeOther | NotModified
    | TemporaryRedirect | PermanentRedirect
    | BadRequest | Unauthorized | PaymentRequired | Forbidden | NotFound
    | MethodNotAllowed | NotAcceptable | Conflict | LengthRequired
    | PayloadTooLarge | UriTooLong | UnsupportedMediaType | IAmATeapot
    | TooManyRequests
    | InternalServerError | NotImplemented | BadGateway | ServiceUnavailable
    | GatewayTimeout
  {
    function Code(): int {
      match this
      case Ok => 200
      case Created => 201
      case Accepted => 202
      case NoContent => 204
      case MultipleChoices => 300
      case MovedPermanently => 301
      case Found => 302
      case SeeOther => 303
      case NotModified => 304
      case TemporaryRedirect => 307
      case PermanentRedirect => 308
      case BadRequest => 400
      case Unauthorized => 401
      case PaymentRequired => 402
      case Forbidden => 403
      case NotFound => 404
      case MethodNotAllowed => 405
      case NotAcceptable => 406
      case Conflict => 409
      case LengthRequired => 411
      case PayloadTooLarge => 413
      case UriTooLong => 414
      case UnsupportedMediaType => 415
      case IAmATeapot => 418
      case TooManyRequests => 429
      case InternalServerError => 500
      case NotImplemented => 501
      case BadGateway => 502
      case ServiceUnavailable => 503
      case GatewayTimeout => 504
    }
  }

  /** A reason phrase. The phrases of the named constants are defined by
      `MockHttpStatus`, which is not part of this model, so they stay symbolic. */
  datatype ReasonPhrase = Standard(status: KnownStatus) | Text(text: string)

  datatype StatusCode = Known(status: KnownStatus) | Custom(customCode: int, customReason: string) {

    function Code(): int {
      match this
      case Known(k) => k.Code()
      case Custom(c, _) => c
    }

    function Reason(): ReasonPhrase {
      match this
      case Known(k) => Standard(k)
      case Custom(_, r) => Text(r)
    }
  }

  /** The switch of `from(int)`: which named constant, if any, a code selects. */
  function KnownOf(code: int): (r: Option<KnownStatus>)
    ensures r.Some? ==> r.value.Code() == code
    ensures r.None? ==> forall k: KnownStatus :: k.Code() != code
  {
    match code
    case 200 => Some(Ok)
    case 201 => Some(Created)
    case 202 => Some(Accepted)
    case 204 => Some(NoContent)
    case 300 => Some(MultipleChoices)
    case 301 => Some(MovedPermanently)
    case 302 => Some(Found)
    case 303 => Some(SeeOther)
    case 304 => Some(NotModified)
    case 307 => Some(TemporaryRedirect)
    case 308 => Some(PermanentRedirect)
    case 400 => Some(BadRequest)
    case 401 => Some(Unauthorized)
    case 402 => Some(PaymentRequired)
    case 403 => Some(Forbidden)
    case 404 => Some(NotFound)
    case 405 => Some(MethodNotAllowed)
    case 406 => Some(NotAcceptable)
    case 409 => Some(Conflict)
    case 411 => Some(LengthRequired)
    case 413 => Some(PayloadTooLarge)
    case 414 => Some(UriTooLong)
    case 415 => Some(UnsupportedMediaType)
    case 418 => Some(IAmATeapot)
    case 429 => Some(TooManyRequests)
    case 500 => Some(InternalServerError)
    case 501 => Some(NotImplemented)
    case 502 => Some(BadGateway)
    case 503 => Some(ServiceUnavailable)
    case 504 => Some(GatewayTimeout)
    case _ => None
  }

  /** The reason phrases of the five status classes of section 15 of RFC 9110,
      1xx first. */
  const ClassReasons: seq<string> := ["Informational", "OK", "Redirection", "Client Error", "Server Error"]

  /** `reasonForCode`: the reason given to a code without a named constant. */
  function ReasonForCode(code: int): (r: string)
    ensures 100 <= code < 600 ==> r == ClassReasons[code / 100 - 1]
    ensures !(100 <= code < 600) ==> r == "Mock Response"
  {
    if code >= 100 && code < 200 then "Informational"
    else if code >= 200 && code < 300 then "OK"
    else if code >= 300 && code < 400 then "Redirection"
    else if code >= 400 && code < 500 then "Client Error"
    else if code >= 500 && code < 600 then "Server Error"
    else "Mock Response"
  }

  /** `from(int, String)`: always a custom status, even for a listed code. */
  function FromWithReason(code: int, reason: string): (s: StatusCode)
    ensures s.Code() == code && s.Reason() == Text(reason)
  {
    Custom(code, reason)
  }

  /** `from(int)`: total, never null, and always carries the code it was given. */
  function From(code: int): (s: StatusCode)
    ensures s.Code() == code
    ensures s.Known? <==> exists k: KnownStatus :: k.Code() == code
    ensures s.Custom? ==> s.Reason() == Text(ReasonForCode(code))
  {
    match KnownOf(code)
    case Some(k) => Known(k)
    case None => FromWithReason(code, ReasonForCode(code))
  }

  /** Each named constant is what `from` returns for its own code: the table
      of `from` and the codes of the constants agree in both directions. */
  lemma FromKnownCode(k: KnownStatus)
    ensures KnownOf(k.Code()) == Some(k)
    ensures From(k.Code()) == Known(k)
  {
  }

  /** No two named constants share a code. */
  lemma KnownCodesDistinct(k1: KnownStatus, k2: KnownStatus)
    requires k1.Code() == k2.Code()
    ensures k1 == k2
  {
    FromKnownCode(k1);
    FromKnownCode(k2);
  }

  /** Every named constant is a success, redirection, client-error or
      server-error code, and its class reason is the one `reasonForCode`
      would have chosen for it. */
  lemma KnownCodesAreClassified(k: KnownStatus)
    ensures 200 <= k.Code() < 600
    ensures ReasonForCode(k.Code()) == ClassReasons[k.Code() / 100 - 1]
  {
  }
}

=== FILE: utf8.dfy ===
/** Bytes and the UTF-8 encoding `String.getBytes(StandardCharsets.UTF_8)`
    performs. A Dafny `char` is a Unicode scalar value, so there are no lone
    surrogates to replace. */
module Utf8 {

  newtype byte = b: int | 0 <= b < 256

  /** The one to four bytes of one scalar value. */
  function EncodeChar(c: char): (bs: seq<byte>)
    ensures 1 <= |bs| <= 4
    ensures |bs| == 1 <==> (c as int) < 0x80
    ensures |bs| == 1 ==> bs[0] as int == c as int
  {
    var cp := c as int;
    if cp < 0x80 then [cp as byte]
    else if cp < 0x800 then [(0xC0 + cp / 0x40) as byte, (0x80 + cp % 0x40) as byte]
    else if cp < 0x1_0000 then
      [(0xE0 + cp / 0x1000) as byte, (0x80 + (cp / 0x40) % 0x40) as byte, (0x80 + cp % 0x40) as byte]
    else
      [(0xF0 + cp / 0x4_0000) as byte, (0x80 + (cp / 0x1000) % 0x40) as byte,
       (0x80 + (cp / 0x40) % 0x40) as byte, (0x80 + cp % 0x40) as byte]
  }

  function Encode(s: string): (bs: seq<byte>)
    ensures |s| <= |bs| <= 4 * |s|
  {
    if |s| == 0 then [] else EncodeChar(s[0]) + Encode(s[1..])
  }

  predicate IsAscii(s: string) {
    forall i :: 0 <= i < |s| ==> (s[i] as int) < 0x80
  }

  /** An ASCII string encodes to one byte per character, each byte the
      character's code. */
  lemma {:induction false} EncodeAscii(s: string)
    requires IsAscii(s)
    ensures |Encode(s)| == |s|
    ensures forall i :: 0 <= i < |s| ==> Encode(s)[i] as int == s[i] as int
  {
    if |s| > 0 {
      EncodeAscii(s[1..]);
      assert Encode(s) == [s[0] as int as byte] + Encode(s[1..]);
    }
  }

  /** Encoding distributes over concatenation. */
  lemma {:induction false} EncodeConcat(a: string, b: string)
    ensures Encode(a + b) == Encode(a) + Encode(b)
  {
    if |a| > 0 {
      EncodeConcat(a[1..], b);
      assert (a + b)[1..] == a[1..] + b;
    } else {
      assert a + b == b;
    }
  }
}

=== FILE: wrappers.dfy ===
/** Wrappers: `Option` stands for a Java reference that may be
    null, `Result` for a call that either returns or throws. */
module Wrappers {

  datatype Option<+T> = None | Some(value: T) {

    /** The wrapped value, or `default` when there is none. */
    function GetOr(default: T): T {
      match this
      case Some(v) => v
      case None => default
    }
  }

  datatype Result<+R, +E> = Success(value: R) | Failure(error: E) {

    /** The returned value, or `default` when the call threw. */
    function GetOr(default: R): R {
      match this
      case Success(v) => v
      case Failure(_) => default
    }
  }
}
